=== FILE: README.md ===
# Machine-coding demos in Dafny

This project is a Dafny model of the state logic behind a set of small React
demos:

- a calculator engine;
- a validated form;
- a three-step form wizard;
- a paginated product grid with star ratings;
- an image carousel;
- an accordion;
- a recipe search box with suggestions.

Each React handler becomes one pure transition function on an immutable state
record, applied atomically. Each one comes with lemmas about how those
transitions behave together.

One module per component:

| module | file | models |
|---|---|---|
| `Common` | common.dfy | JavaScript `trim` and `\s`, `filter(x => x !== v)`, and filtering against an exclusion list |
| `Calculator` | calculator.dfy | display, captured operand, pending operator, await flag, five-entry history, keyboard dispatch |
| `Patterns` | patterns.dfy | the anchored and unanchored `\S+@\S+\.\S+` email tests |
| `FormValidation` | form.dfy | `validate`, `handleChange`, `handleSubmit` of the validated form |
| `StepperForm` | stepper.dfy | the three tab validators, tab navigation, the interest checkboxes |
| `Pagination` | pagination.dfy | page count, page window, page changes, page bar, `slice` |
| `StarRating` | stars.dfy | full / half / empty star split |
| `Carousel` | carousel.dfy | wrap-around index, transition lock, play/pause, autoplay |
| `Accordion` | accordion.dfy | single-open toggle and `+`/`-` indicator |
| `SearchContext` | search_context.dfy | suggestions with exclusions, search outcome, clear/reset |
| `SearchBar` | search_bar.dfy | dropdown visibility, keyboard highlight index, bar events |

Some things the code depends on are not modelled. Each becomes a parameter instead:

- **Calculator arithmetic.** Floating-point arithmetic and number formatting are an `Arith` record of two function values. These are `compute(op, l, r)`, standing for `String(parseFloat(l) op parseFloat(r))`, and `parsesToZero`. The calculator properties hold for any arithmetic, except where a member says otherwise: `Calculator.PressKeepsWellFormed` requires `ValidArith` (a result is never the empty string), `Calculator.DivisionByZeroScenario` requires that "0" parses to zero, and `Calculator.ChainScenario` requires that 2 + 3 formats as a non-empty string.
- **Network answers.** These are `SuggestionFetch` (the names, or a failure) and `SearchResponse` (a possibly missing recipe list, or a failure).
- **Timers.** The carousel's timers are the explicit events `TransitionEnd` and `Tick`.

The calculator follows `performOperation` as written. When nothing is captured, "=" stores the display as the left operand with no operator (calculator/src/components/Calculator.tsx:74-80). After that the `operation` test at line 81 fails, so every operator press is ignored until "C". A calculator where "=" with nothing pending leaves the state alone is modelled beside it; see Findings.

## Model

| member | source | states |
|---|---|---|
| `Common.Trim` | formValidation/src/component/Form.tsx:35 | the trimmed string is empty exactly when the input is all JavaScript white space; otherwise it starts and ends on non-space |
| `Common.TrimPieces` | formValidation/src/component/Form.tsx:35 | the trimmed string is a contiguous piece of the input, and what was cut off before and after it is all white space |
| `Common.Utf16Length` | stepper-form/src/component/TabForm.tsx:42 | a string's `length` in UTF-16 code units lies between its character count and twice that, and equals the character count exactly when no character lies above U+FFFF |
| `Common.Utf16LengthConcat` | stepper-form/src/component/TabForm.tsx:42 | code-unit lengths add over concatenation, which with the one-character bounds fixes the length of every string: one unit per character up to U+FFFF, two above |
| `Common.RemoveAll` | formValidation/src/component/Form.tsx:72 | `filter(x => x !== v)`: `v` is gone, every other value keeps its multiplicity |
| `Common.RemoveAllConcat` | formValidation/src/component/Form.tsx:72 | removing from a concatenation removes from each part and keeps the parts in order, so the values that stay keep their relative order |
| `Common.FilterOut` | searchBar/src/context/SearchContext.tsx:78-80 | no excluded name survives, and every survivor is a fetched name that is not excluded. Every fetched name that is not excluded survives |
| `Common.FilterOutConcat` | searchBar/src/context/SearchContext.tsx:78-80 | filtering a concatenation filters each part and keeps the parts in order |
| `Common.FilterOutExtend` | searchBar/src/context/SearchContext.tsx:78-80 | filtering against the exclusions plus `x` equals filtering against the old exclusions and then removing every `x` |
| `Calculator.Clear` | calculator/src/components/Calculator.tsx:21-28 | "C" restores the initial display/operand/operator/flag and leaves the history |
| `Calculator.ClearEntry` | calculator/src/components/Calculator.tsx:30-35 | "CE" resets only the display to "0"; a pending operand and operator survive |
| `Calculator.InputNumber` | calculator/src/components/Calculator.tsx:37-53 | a digit replaces the display when awaiting an operand or when it shows "0", else appends; the flag drops |
| `Calculator.InputDecimal` | calculator/src/components/Calculator.tsx:55-68 | awaiting gives "0."; a display with a point is unchanged; otherwise a point is appended; it leaves a display that was not awaiting an operand still not awaiting one, so the next digit extends it; afterwards the display always has a point |
| `Calculator.PushHistory` | calculator/src/components/Calculator.tsx:112 | the new entry goes first, followed by at most four older entries in order, so at most five |
| `Calculator.PerformOperation` | calculator/src/components/Calculator.tsx:70-123 | the four outcomes: capture when nothing is captured (even for "="), ignore when there is no operator, "Error" on division by zero, else apply, record history, and chain or finish |
| `Calculator.KeyToken` | calculator/src/components/Calculator.tsx:136-155 | the keyboard map; key names pass the string-compared digit test exactly when they start with '0'..'8' or are "9"; every key that is neither a digit nor one of `.`, `+`, `-`, `*`, `/`, Enter, `=`, Escape, Backspace maps to nothing |
| `Calculator.DigitTest` | calculator/src/components/Calculator.tsx:139 | `key >= "0" && key <= "9"` on strings holds exactly for names starting with '0'..'8' and for "9" itself |
| `Calculator.DigitsFromIdle` | calculator/src/components/Calculator.tsx:37-53 | from the start, typed digits show exactly those digits without leading zeros ("0" if all zero) |
| `Calculator.DecimalIdempotent` | calculator/src/components/Calculator.tsx:55-68 | a second decimal point right after the first changes nothing |
| `Calculator.PressKeepsSingleDot` | calculator/src/components/Calculator.tsx:37-68 | once entry starts, the display never holds two decimal points, whatever is pressed |
| `Calculator.PressKeepsWellFormed` | calculator/src/components/Calculator.tsx:70-123 | the display is never empty and a pending operator always has a captured operand |
| `Calculator.PushAllKeepsRecent` | calculator/src/components/Calculator.tsx:112 | after any run of operations the history is the newest five entries in reverse order of completion |
| `Calculator.SixOperationsKeepFive` | calculator/src/components/Calculator.tsx:112 | six operations leave exactly the last five, newest first |
| `Calculator.EqualsWithNothingPendingLocks` | calculator/src/components/Calculator.tsx:74-80 | "=" with nothing captured captures the display with no operator (as written) |
| `Calculator.LockedUntilClear` | calculator/src/components/Calculator.tsx:74-120 | in that state, operators and "=" do nothing and no history is recorded until "C" |
| `Calculator.PerformOperationIntended` | calculator/src/components/Calculator.tsx:125-127 | corrected "=": a no-op with nothing pending; in every other case it is exactly the original `performOperation`, so it completes a pending operation |
| `Calculator.IntendedNeverLocks` | calculator/src/components/Calculator.tsx:70-134 | with the corrected "=", no state holds a captured value without an operator, and every operator press takes effect |
| `Calculator.DivisionByZeroScenario` | calculator/src/components/Calculator.tsx:94-104 | 8 / 0 = shows "Error" and records nothing; a following digit starts a fresh display |
| `Calculator.ChainScenario` | calculator/src/components/Calculator.tsx:81-119 | 2 + 3 * 4 = evaluates left to right with two history entries, newest first |
| `Calculator.OperandReuseScenario` | calculator/src/components/Calculator.tsx:70-119 | 5 + = applies the operator to the captured operand twice |
| `Calculator.ClearEntryScenario` | calculator/src/components/Calculator.tsx:30-35 | CE in the middle of an operation keeps it pending, so the next operand completes it |
| `Patterns.MatchEmail` | formValidation/src/component/Form.tsx:43 | the linear scan accepts exactly the strings the anchored email pattern matches |
| `Patterns.MatchesImpliesContains` | stepper-form/src/component/TabForm.tsx:50 | every anchored match is an unanchored match |
| `Patterns.ContainsEmailIff` | stepper-form/src/component/TabForm.tsx:50 | the unanchored pattern matches exactly when some '@' and later '.' have a non-space character before, between and after them |
| `Patterns.SurroundingTextAccepted` | stepper-form/src/component/TabForm.tsx:50 | "mail riya@gmail.com now" passes the wizard's test but not the form's |
| `FormValidation.Validate` | formValidation/src/component/Form.tsx:26-61 | each field has an error exactly when it is blank or fails its pattern, and "required" takes precedence |
| `FormValidation.EmptyFormFailsEverywhere` | formValidation/src/component/Form.tsx:26-61 | the empty form gets every "required" message |
| `FormValidation.FilledFormPasses` | formValidation/src/component/Form.tsx:26-61 | a plausible filled form has no errors |
| `FormValidation.SetField` | formValidation/src/component/Form.tsx:75 | `[name]: value` changes that field and no other |
| `FormValidation.HandleChange` | formValidation/src/component/Form.tsx:63-79 | text inputs set their field; a checkbox appends or removes every copy of its value; only the error under the input's name clears |
| `FormValidation.SubjectErrorSurvivesCheckbox` | formValidation/src/component/Form.tsx:78 | a subject checkbox clears the error under its own name, so the "subject" error stays |
| `FormValidation.CheckboxAppendsThenRemovesAll` | formValidation/src/component/Form.tsx:67-73 | ticking adds a copy even if present; unticking removes them all |
| `FormValidation.HandleSubmit` | formValidation/src/component/Form.tsx:81-90 | errors are always replaced; the data is saved and reset exactly when it validates |
| `FormValidation.SubmitAfterSaveSavesNothing` | formValidation/src/component/Form.tsx:81-90 | submitting the emptied form left by a save saves nothing and shows every "required" message |
| `StepperForm.ProfileErrors` | stepper-form/src/component/TabForm.tsx:38-56 | name, age and email errors exactly for a name shorter than two UTF-16 code units after trimming, an age under 18 or missing, and an email missing or without an address |
| `StepperForm.NameLengthInCodeUnits` | stepper-form/src/component/TabForm.tsx:42 | a one-character name above U+FFFF passes the length test, while a one-letter name fails it |
| `StepperForm.InterestErrors` | stepper-form/src/component/TabForm.tsx:61-71 | valid exactly when the interest list exists and is non-empty; the only error is the interests message, under the `interests` key |
| `StepperForm.SettingErrors` | stepper-form/src/component/TabForm.tsx:76-86 | valid exactly when the theme is a non-empty string; the only error is the theme message, under the `theme` key |
| `StepperForm.InitialDataValid` | stepper-form/src/component/TabForm.tsx:25-31 | the starting data passes all three tabs |
| `StepperForm.ToggleInterests` | stepper-form/src/component/Interest.tsx:8-21 | checking appends the name, creating the list if missing; unchecking removes every copy, and a missing list stays missing |
| `StepperForm.Step` | stepper-form/src/component/TabForm.tsx:91-137 | the tab stays in 0..2 and moves only when the current tab validates, by one for Prev/Next or to the clicked header; every offered navigation click, even one that changes nothing else, replaces the errors with the current tab's; a click on a button that is not offered changes nothing; the name, age, email and theme inputs set exactly their own field of the data |
| `StepperForm.Run` | stepper-form/src/component/TabForm.tsx:91-114 | any run of events keeps the tab in 0..2 |
| `StepperForm.NextNextReachesSettings` | stepper-form/src/component/TabForm.tsx:96-100 | from the start, Next twice reaches Setting |
| `StepperForm.EmptyInterestsBlockNext` | stepper-form/src/component/TabForm.tsx:61-71 | with no interests, Next stays on Interest and shows the interests message |
| `StepperForm.InterestDuplicatesThenRemoved` | stepper-form/src/component/Interest.tsx:10-19 | a second check adds a duplicate; unchecking removes all copies |
| `Pagination.TotalPages` | paginationApp/src/App.tsx:21 | the least page count that covers every product at ten per page |
| `Pagination.WindowEnd` | paginationApp/src/App.tsx:23-24 | every window is ten wide |
| `Pagination.PageOf` | paginationApp/src/App.tsx:21-24 | every product index lies in the window of exactly one page |
| `Pagination.PageOfInRange` | paginationApp/src/App.tsx:21-24 | that page is one of 1..totalPages, so the windows cover the catalogue |
| `Pagination.ChangePage` | paginationApp/src/App.tsx:26-39 | a button sets the page as given; Next and Prev move one step only inside 1..totalPages |
| `Pagination.PageStaysInRange` | paginationApp/src/App.tsx:29-39 | the page stays within 1..max(1, totalPages) |
| `Pagination.PageButtons` | paginationApp/src/component/Pagination.tsx:30-43 | one button per page, button i asking for page i + 1 |
| `Pagination.ExactlyOneActive` | paginationApp/src/component/Pagination.tsx:35-37 | exactly one button is highlighted when the page exists, none otherwise |
| `Pagination.DisabledMeansInert` | paginationApp/src/component/Pagination.tsx:21-52 | on a page in range, Prev is disabled exactly when clicking it keeps the page, and likewise Next |
| `Pagination.EmptyCatalogue` | paginationApp/src/component/Pagination.tsx:22-49 | with no products there are no buttons and Next stays enabled but does nothing |
| `Pagination.JsSlice` | paginationApp/src/component/ProductCart.tsx:14 | `slice` resolves each bound (negative counts from the end, then clamped to the length) and gives the elements between the two resolved bounds, in order; for non-negative bounds at most `end - start` of them and nothing past the end |
| `Pagination.PageItemsCount` | paginationApp/src/component/ProductCart.tsx:14 | every existing page shows one to ten products |
| `Pagination.PagesUpToPrefix` | paginationApp/src/component/ProductCart.tsx:14 | pages 1..k together show exactly the first 10k products in order |
| `Pagination.AllPagesShowEachProductOnce` | paginationApp/src/component/ProductCart.tsx:14 | all pages together show the catalogue exactly once, in order |
| `StarRating.StarSplit` | paginationApp/src/component/StarRating.tsx:8-10 | full stars are the floor of the rating, a half star exactly when the fraction is at least 0.5, and the three counts add up to five |
| `StarRating.CountsValidIff` | paginationApp/src/component/StarRating.tsx:8-18 | both counts are non-negative, so the arrays can be built, exactly for ratings in [0, 5.5) |
| `StarRating.WholeRating` | paginationApp/src/component/StarRating.tsx:8-10 | a whole rating n shows n full, no half, 5 - n empty |
| `Carousel.Init` | carousel/src/component/carousel.tsx:22-24 | slide 0, playing as `autoPlay` says, lock free |
| `Carousel.JsRem` | carousel/src/component/carousel.tsx:29 | JavaScript's `%`: in range for non-negative operands, never positive for negative ones |
| `Carousel.JsRemCongruent` | carousel/src/component/carousel.tsx:29 | the remainder differs from the dividend by a multiple of the slide count, which with the range fixes it uniquely |
| `Carousel.Next` | carousel/src/component/carousel.tsx:26-31 | ignored while locked; otherwise locks and advances, wrapping from the last slide to 0 |
| `Carousel.Prev` | carousel/src/component/carousel.tsx:33-40 | ignored while locked; otherwise locks and steps back, wrapping from 0 to the last slide |
| `Carousel.GoTo` | carousel/src/component/carousel.tsx:42-49 | ignored while locked; otherwise locks and takes the index unchecked |
| `Carousel.TransitionEnd` | carousel/src/component/carousel.tsx:30 | the timer only releases the lock |
| `Carousel.TogglePlayPause` | carousel/src/component/carousel.tsx:51-53 | flips playing and nothing else |
| `Carousel.Tick` | carousel/src/component/carousel.tsx:55-61 | autoplay advances only while playing with more than one slide |
| `Carousel.PlayPauseControlsTick` | carousel/src/component/carousel.tsx:51-61 | after a pause a tick changes nothing; after resuming with several slides a tick is a forward arrow press; the button pressed twice restores the state |
| `Carousel.MovesStayInRange` | carousel/src/component/carousel.tsx:26-40 | Next, Prev and autoplay keep the index on a slide |
| `Carousel.DotsStayInRange` | carousel/src/component/carousel.tsx:109-116 | the dot buttons keep the index on a slide |
| `Carousel.NextPrevInverse` | carousel/src/component/carousel.tsx:29-37 | with the lock released in between, Prev undoes Next and Next undoes Prev |
| `Carousel.ForwardSplit` | carousel/src/component/carousel.tsx:26-31 | a run of a + b forward moves is a run of a followed by a run of b |
| `Carousel.ForwardAdvances` | carousel/src/component/carousel.tsx:29 | forward moves that stop before the last slide advance the index by their number |
| `Carousel.FullCycle` | carousel/src/component/carousel.tsx:26-31 | n forward moves return to the starting slide |
| `Accordion.Toggle` | accordian/src/component/accordian.tsx:9-11 | toggling the open item closes it; toggling any other opens exactly that one |
| `Accordion.Click` | accordian/src/component/accordian.tsx:18-26 | both header buttons perform the same toggle |
| `Accordion.Indicator` | accordian/src/component/accordian.tsx:25 | "-" exactly for the open item, "+" otherwise |
| `Accordion.AtMostOneOpen` | accordian/src/component/accordian.tsx:28-36 | with distinct ids, one item shows its content if the active id is among them, none otherwise |
| `Accordion.ShownItemsOpenAtMostOne` | accordian/src/component/accordian.tsx:7-36 | of the six items at most one is open, and none at first |
| `Accordion.ToggleTwice` | accordian/src/component/accordian.tsx:9-11 | toggling twice restores the state exactly when nothing or that item was open, else closes everything |
| `SearchContext.Init` | searchBar/src/context/SearchContext.tsx:33-40 | everything empty and no error, with the exclusions read from storage |
| `SearchContext.GetSuggestions` | searchBar/src/context/SearchContext.tsx:69-88 | a blank query or a failed lookup empties the list; otherwise it holds the fetched names minus the excluded ones, in order; nothing else changes |
| `SearchContext.PerformSearch` | searchBar/src/context/SearchContext.tsx:42-67 | a blank or undefined query does nothing; recipes found give results with no error; no recipes or a failure give no results and their message |
| `SearchContext.ClearSearch` | searchBar/src/context/SearchContext.tsx:90-95 | query, results and suggestions emptied, error cleared, exclusions kept |
| `SearchContext.ResetSearch` | searchBar/src/context/SearchContext.tsx:97-101 | the same, but the error line stays |
| `SearchContext.ClearIsResetWithoutError` | searchBar/src/context/SearchContext.tsx:90-101 | clear and reset differ only in the error line |
| `SearchContext.RemoveSuggestion` | searchBar/src/context/SearchContext.tsx:103-106 | the name joins the exclusions and every copy leaves the list; the others keep their multiplicity and order |
| `SearchContext.RemoveThenRefetchAgrees` | searchBar/src/context/SearchContext.tsx:69-106 | removing from a fetched list gives what a new lookup of the same names would give |
| `SearchContext.Apply` | searchBar/src/context/SearchContext.tsx:42-106 | every provider operation keeps the old exclusions and never lets an excluded name onto the list |
| `SearchContext.ApplyAllKeepsExclusions` | searchBar/src/context/SearchContext.tsx:42-106 | over any run of operations the exclusions only grow and no excluded name is ever suggested |
| `SearchContext.RemovedNeverReturns` | searchBar/src/context/SearchContext.tsx:78-106 | once removed, a name is never suggested again |
| `SearchContext.InitConsistent` | searchBar/src/context/SearchContext.tsx:33-40 | the provider starts with no excluded name suggested |
| `SearchBar.InitBar` | searchBar/src/components/SearchBar.tsx:26-28 | dropdown hidden, bar unfocused, no highlight |
| `SearchBar.Select` | searchBar/src/components/SearchBar.tsx:97-103 | picking stores its argument as the query, whatever it is, hides the dropdown and drops the highlight |
| `SearchBar.EnterTargetAsWritten` | searchBar/src/components/SearchBar.tsx:138-140 | as written, Enter indexes the list with any non-negative index, and yields `undefined` past the end |
| `SearchBar.EnterTarget` | searchBar/src/components/SearchBar.tsx:138-140 | corrected Enter: picks exactly when the index is on the list, and the pick is the highlighted name |
| `SearchBar.EnterTargetAgrees` | searchBar/src/components/SearchBar.tsx:138-140 | the two agree whenever the index is not past the end |
| `SearchBar.KeyDown` | searchBar/src/components/SearchBar.tsx:122-142 | keys do nothing while hidden; Escape hides and drops the highlight; the arrows move within the list, down stopping at the last name, up falling to -1, and do nothing for an empty list; Enter picks the highlighted name, and with the index past the end selects `undefined` exactly as a pick would: an undefined query, the list hidden, the highlight dropped, focus unchanged |
| `SearchBar.KeyDownIntended` | searchBar/src/components/SearchBar.tsx:138-140 | corrected Enter: picks exactly the highlighted name on the list and otherwise does nothing, so the query never becomes undefined; every other key as written |
| `SearchBar.KeyDownIntendedAgrees` | searchBar/src/components/SearchBar.tsx:122-142 | the written and corrected handlers differ exactly on Enter with the list shown and the index past its end |
| `SearchBar.ArrowsKeepIndexInRange` | searchBar/src/components/SearchBar.tsx:130-137 | the arrow keys keep an index in -1..len-1 there |
| `SearchBar.ArrowDownStopsAtLast` | searchBar/src/components/SearchBar.tsx:130-134 | k presses of ArrowDown reach min(index + k, len - 1) |
| `SearchBar.Step` | searchBar/src/components/SearchBar.tsx:41-120 | typing, focus, submit, pick, remove, click away and clear, each with its state change; typing keeps the focus flag and the highlight, focus keeps the highlight; focus and submit act only on a query with text; clear resets the provider and runs the focus handler with the query from before the reset; the exclusions grow and stay off the list; the list is never switched on over an undefined query |
| `SearchBar.VisibilityRules` | searchBar/src/components/SearchBar.tsx:46-62 | typing shows the dropdown exactly for a non-blank value; focus shows it for a non-blank query; Escape, pick, click away and submit hide it, and after clear it does not render |
| `SearchBar.ClearRunsStaleFocus` | searchBar/src/components/SearchBar.tsx:41-51 | clear equals the focus handler under the old query followed by the reset; after clearing a query with text the list is switched on but not rendered, and Escape then drops the highlight |
| `SearchBar.RunKeepsConsistent` | searchBar/src/components/SearchBar.tsx:41-142 | across any sequence of bar events no excluded name is ever suggested |
| `SearchBar.RunKeepsQueryDefined` | searchBar/src/components/SearchBar.tsx:224 | across any sequence of bar events, whenever the list is switched on the query is a string, so the render's `trim` call never meets `undefined` |
| `SearchBar.EnterPicksListedName` | searchBar/src/components/SearchBar.tsx:138-140 | with the corrected Enter, the bar is unchanged or the query picked is on the list and not excluded |
| `SearchBar.StaleIndexSelectsUndefined` | searchBar/src/components/SearchBar.tsx:130-140 | type, down, down, remove the second name: the index is past the end; Enter as written stores an undefined query and hides the list, after which submit does nothing and focus does not reopen the list; the corrected Enter leaves the bar alone |

## Left out

- React mechanics: state batching, `useCallback` dependency lists and effect scheduling. Every handler is one atomic transition on the current state.
- Calculator floating point. `parseFloat`, the four operators, `String(number)` and NaN from an "Error" operand are supplied through `Arith`.
- Listeners and the DOM: registering and removing the window/document listeners, the click-outside containment test, and focusing or blurring the input.
- Carousel timers. The 300 ms release and the autoplay interval are the `TransitionEnd` and `Tick` events, with any interleaving the caller chooses.
- Carousel.TogglePlayPause: the button exists only when `autoPlay` is set and there is more than one slide (carousel/src/component/carousel.tsx:100). The model offers the toggle always, so with `autoPlay` off it reaches auto-advancing states the component cannot.
- Carousel.Next and Carousel.Prev require at least one slide. With no slides the carousel renders no controls, and its autoplay guard never fires.
- Network, storage and browser APIs:
  - the recipe and suggestion requests, which are parameters here;
  - `localStorage`, beyond the saved exclusions given to `Init`;
  - `alert`, toasts and `console`;
  - speech recognition (start and stop listening);
  - the file and image upload inputs.
- Loading flags (`isLoading`, `loadingSuggestions`, the grid's loader). They only choose what text to render.
- SearchBar.Select: the search that a pick launches is not modelled. It reads the query from before the pick through a stale closure, which is a render-timing effect.
- SearchBar.Step: `ClearClick` assumes the input is not focused when the clear button is clicked, as in browsers where the button takes focus on click, so `focus()` fires the focus handler. Where the input keeps focus, `focus()` fires no event and only the reset happens; that case is not modelled.
- SearchBar.Step: pressing Enter with no highlight submits the form implicitly in the browser. That is the separate `Submit` event here.
- SearchBar.Step: with an undefined query, `searchQuery.trim()` throws a TypeError in the focus and submit handlers. The model keeps the updates the handler made before the throw (focus sets `focused`, submit changes nothing) and does not represent the uncaught error itself. The input's switch to an uncontrolled field under `value={undefined}` is not modelled either.
- SearchContext.ApplyAllKeepsExclusions: holds because each lookup is one atomic step. The real `getSuggestions` awaits the fetch and then filters with the exclusion list captured when it started, so a name removed while a lookup is in flight can come back, and answers to overlapping lookups can land out of order.
- SearchContext.RemovedNeverReturns: holds only under the same atomic-lookup assumption; a name removed during an in-flight lookup can be suggested again when that lookup lands.
- SearchBar.RunKeepsConsistent: holds only under the same atomic-lookup assumption.
- StepperForm.Step: the Profile and Setting inputs are plain field setters (`SetName`, `SetAge`, `SetEmail`, `SetTheme`). The age is stored as a number or `None` rather than as the typed string.
- StepperForm.ProfileErrors: the age field holds the string of a `type="number"` input (stepper-form/src/component/Profile.tsx:45-50). The browser sanitizes an empty or unparsable entry to "", which is modelled as `None`; any other entry is modelled as its numeric value, which is what `age < 18` compares.
- Strings are sequences of Unicode scalar values, so a lone UTF-16 surrogate, which a JavaScript string can hold, cannot be written down.
- Views, styling, icons and wiring files.
- Accordion: the item data file is static; only the distinctness of its six ids is used.
- The recipe-list mapping in the API client.

## Findings

| source | as written | input that shows it | evidently intended | confidence | as-written member | corrected member |
|---|---|---|---|---|---|---|
| searchBar/src/components/SearchBar.tsx:138-140 | Enter picks `suggestions[index]` whenever the index is non-negative, though nothing clamps the index when the list shrinks | type "pasta" (lookup gives "a", "b"), ArrowDown twice, remove "b", press Enter: index 1 on a one-name list stores `undefined` as the query; focusing or submitting afterwards throws on `undefined.trim()` | pick only when the index is on the current list | not executed | `SearchBar.StaleIndexSelectsUndefined` | `SearchBar.KeyDownIntended` |
| calculator/src/components/Calculator.tsx:74-80 | "=" with nothing captured copies the display into the captured operand with no operator, after which every operator and "=" is ignored until "C" | press 5, then "=", then "+", "3", "=": the display shows "3" and no history is recorded | "=" with nothing pending leaves the state alone | not executed | `Calculator.LockedUntilClear` | `Calculator.IntendedNeverLocks` |

=== FILE: accordion.dfy ===
/**
  The accordion: at most one item open at a time, toggled by either of the
  two buttons in an item's header.
 */
module Accordion {
  import opened Common

  /** `activeId`: the open item's id, or none. */
  type ActiveId = Option<int>

  const InitiallyOpen: ActiveId := None

  /** The ids of the six items shown. */
  const ItemIds: seq<int> := [1, 2, 3, 4, 5, 6]

  predicate IsOpen(active: ActiveId, id: int) {
    active == Some(id)
  }

  /** `handleToggle(id)` */
  function Toggle(active: ActiveId, id: int): (r: ActiveId)
    ensures IsOpen(active, id) ==> r.None?
    ensures !IsOpen(active, id) ==> IsOpen(r, id)
    ensures forall other :: other != id ==> !IsOpen(r, other)
  {
    if active == Some(id) then None else Some(id)
  }

  /** Each header has a title button and a "+"/"-" button. */
  datatype HeaderButton = TitleButton | IndicatorButton

  function Click(active: ActiveId, id: int, button: HeaderButton): (r: ActiveId)
    ensures r == Toggle(active, id)
  {
    match button
    case TitleButton => Toggle(active, id)
    case IndicatorButton => Toggle(active, id)
  }

  function Indicator(active: ActiveId, id: int): (r: string)
    ensures r == "-" <==> IsOpen(active, id)
    ensures r == "+" <==> !IsOpen(active, id)
  {
    if active == Some(id) then "-" else "+"
  }

  predicate Distinct(ids: seq<int>) {
    forall i, j :: 0 <= i < j < |ids| ==> ids[i] != ids[j]
  }

  /** How many of the items render their content. */
  function OpenCount(active: ActiveId, ids: seq<int>): nat {
    if ids == [] then 0 else (if IsOpen(active, ids[0]) then 1 else 0) + OpenCount(active, ids[1..])
  }

  /** With distinct ids, at most one item is open, and exactly one when the
      active id is one of them. */
  lemma {:induction false} AtMostOneOpen(active: ActiveId, ids: seq<int>)
    requires Distinct(ids)
    ensures OpenCount(active, ids) == if active.Some? && active.value in ids then 1 else 0
  {
    if ids != [] {
      AtMostOneOpen(active, ids[1..]);
      if IsOpen(active, ids[0]) {
        assert ids[0] !in ids[1..];
      }
      assert active.Some? && active.value in ids <==>
             IsOpen(active, ids[0]) || (active.Some? && active.value in ids[1..]);
    }
  }

  lemma ShownItemsOpenAtMostOne(active: ActiveId)
    ensures OpenCount(active, ItemIds) <= 1
    ensures OpenCount(InitiallyOpen, ItemIds) == 0
  {
    AtMostOneOpen(active, ItemIds);
    AtMostOneOpen(InitiallyOpen, ItemIds);
  }

  /** Toggling twice restores the state only when it started with nothing
      open or with that item open; otherwise everything ends closed. */
  lemma ToggleTwice(active: ActiveId, id: int)
    ensures Toggle(Toggle(active, id), id) == active <==> active.None? || active == Some(id)
    ensures Toggle(Toggle(active, id), id) != active ==> Toggle(Toggle(active, id), id).None?
  {
  }
}

=== FILE: calculator.dfy ===
/**
  The calculator's arithmetic engine: a display string, a captured left
  operand, a pending operator and an "awaiting a fresh operand" flag, plus a
  newest-first history of completed operations capped at five entries.

  Floating-point parsing, the four operators and number formatting are not
  modelled; they are supplied as an `Arith` value. The properties below hold
  whatever the arithmetic computes, except where a member requires more:
  `PressKeepsWellFormed` needs `ValidArith`, `DivisionByZeroScenario` needs
  "0" to parse to zero, and `ChainScenario` needs a non-empty 2 + 3.
 */
module Calculator {
  import opened Common

  datatype Op = Add | Sub | Mul | Div

  function Symbol(op: Op): string {
    match op
    case Add => "+"
    case Sub => "-"
    case Mul => "*"
    case Div => "/"
  }

  datatype CalcState = CalcState(display: string, previousValue: string, operation: Option<Op>, waiting: bool)

  datatype Calc = Calc(state: CalcState, history: seq<string>)

  /** `compute(op, l, r)` stands for `String(parseFloat(l) op parseFloat(r))`
      and `parsesToZero(s)` for `parseFloat(s) === 0`. */
  datatype Arith = Arith(compute: (Op, string, string) -> string, parsesToZero: string -> bool)

  /** `String(number)` never produces the empty string. */
  ghost predicate ValidArith(ar: Arith) {
    forall op, l, r :: ar.compute(op, l, r) != ""
  }

  const InitialState := CalcState("0", "", None, false)
  const Initial := Calc(InitialState, [])
  const ErrorState := CalcState("Error", "", None, true)
  const HistoryCap := 5

  /** The "C" button and the Escape key. */
  function Clear(c: Calc): (r: Calc)
    ensures r.state == InitialState
    ensures r.history == c.history
  {
    Calc(InitialState, c.history)
  }

  /** The "CE" button and the Backspace key: only the display changes. */
  function ClearEntry(c: Calc): (r: Calc)
    ensures r.state.display == "0"
    ensures r.state.previousValue == c.state.previousValue
    ensures r.state.operation == c.state.operation
    ensures r.state.waiting == c.state.waiting
    ensures r.history == c.history
  {
    c.(state := c.state.(display := "0"))
  }

  function InputNumber(c: Calc, num: string): (r: Calc)
    ensures c.state.waiting ==> r.state.display == num && !r.state.waiting
    ensures !c.state.waiting && c.state.display == "0" ==> r.state.display == num
    ensures !c.state.waiting && c.state.display != "0" ==> r.state.display == c.state.display + num
    ensures !c.state.waiting ==> !r.state.waiting
    ensures r.state.previousValue == c.state.previousValue
    ensures r.state.operation == c.state.operation
    ensures r.history == c.history
  {
    if c.state.waiting then
      c.(state := c.state.(display := num, waiting := false))
    else
      c.(state := c.state.(display := if c.state.display == "0" then num else c.state.display + num))
  }

  function InputDecimal(c: Calc): (r: Calc)
    ensures c.state.waiting ==> r.state.display == "0." && !r.state.waiting
    ensures !c.state.waiting && '.' in c.state.display ==> r == c
    ensures !c.state.waiting && '.' !in c.state.display ==> r.state.display == c.state.display + "."
    ensures !c.state.waiting ==> !r.state.waiting
    ensures '.' in r.state.display
    ensures r.state.previousValue == c.state.previousValue
    ensures r.state.operation == c.state.operation
    ensures r.history == c.history
  {
    if c.state.waiting then
      assert "0."[1] == '.';
      c.(state := c.state.(display := "0.", waiting := false))
    else if '.' !in c.state.display then
      assert (c.state.display + ".")[|c.state.display|] == '.';
      c.(state := c.state.(display := c.state.display + "."))
    else
      c
  }

  /** The text recorded for one completed operation. */
  function HistoryEntry(left: string, op: Op, right: string, result: string): string {
    left + " " + Symbol(op) + " " + right + " = " + result
  }

  /** `[entry, ...history.slice(0, 4)]`: newest first, at most five entries,
      older entries kept in their order. */
  function PushHistory(h: seq<string>, entry: string): (r: seq<string>)
    ensures |r| == Min(|h|, HistoryCap - 1) + 1 && |r| <= HistoryCap
    ensures r[0] == entry
    ensures forall i :: 1 <= i < |r| ==> r[i] == h[i - 1]
  {
    [entry] + h[..Min(|h|, HistoryCap - 1)]
  }

  /** `performOperation(next)`: an operator button passes `Some(op)`, the "="
      button and the Enter key pass `None`. */
  function PerformOperation(c: Calc, ar: Arith, next: Option<Op>): (r: Calc)
    // Nothing captured yet: capture the display, even when `next` is None.
    ensures c.state.previousValue == "" ==>
              r == Calc(CalcState(c.state.display, c.state.display, next, true), c.history)
    // A captured value without an operator: every press is ignored.
    ensures c.state.previousValue != "" && c.state.operation.None? ==> r == c
    // Division by a right operand that parses to zero.
    ensures c.state.previousValue != "" && c.state.operation == Some(Div) && ar.parsesToZero(c.state.display) ==>
              r == Calc(ErrorState, c.history)
    // A successful application.
    ensures c.state.previousValue != "" && c.state.operation.Some?
            && !(c.state.operation == Some(Div) && ar.parsesToZero(c.state.display)) ==>
              var op := c.state.operation.value;
              var result := ar.compute(op, c.state.previousValue, c.state.display);
              && r.history == PushHistory(c.history, HistoryEntry(c.state.previousValue, op, c.state.display, result))
              && r.state.display == result
              && r.state.previousValue == (if next.Some? then result else "")
              && r.state.operation == next
              && r.state.waiting
  {
    var s := c.state;
    if s.previousValue == "" then
      Calc(CalcState(s.display, s.display, next, true), c.history)
    else if s.operation.None? then
      c
    else if s.operation.value == Div && ar.parsesToZero(s.display) then
      Calc(ErrorState, c.history)
    else
      var op := s.operation.value;
      var result := ar.compute(op, s.previousValue, s.display);
      Calc(CalcState(result, if next.Some? then result else "", next, true),
           PushHistory(c.history, HistoryEntry(s.previousValue, op, s.display, result)))
  }

  datatype Token = Number(num: string) | Decimal | Operator(op: Op) | Equals | ClearAll | ClearLastEntry

  /** One button press or key press, handled to completion. */
  function Press(c: Calc, ar: Arith, t: Token): Calc {
    match t
    case Number(num) => InputNumber(c, num)
    case Decimal => InputDecimal(c)
    case Operator(op) => PerformOperation(c, ar, Some(op))
    case Equals => PerformOperation(c, ar, None)
    case ClearAll => Clear(c)
    case ClearLastEntry => ClearEntry(c)
  }

  /** The tokens pressed in order, the last one handled last. */
  function PressAll(c: Calc, ar: Arith, ts: seq<Token>): Calc
    decreases |ts|
  {
    if ts == [] then c else Press(PressAll(c, ar, ts[..|ts| - 1]), ar, ts[|ts| - 1])
  }

  /* ---------------- Keyboard ---------------- */

  /** JavaScript's `a <= b` on strings: lexicographic order of code units. */
  predicate LexLe(a: string, b: string) {
    if a == [] then true
    else if b == [] then false
    else if a[0] != b[0] then a[0] < b[0]
    else LexLe(a[1..], b[1..])
  }

  /** The keydown listener's dispatch. Its digit test compares the key name
      with "0" and "9" as strings; the ensures states which names pass. */
  function KeyToken(key: string): (r: Option<Token>)
    ensures r == Some(Number(key)) <==> |key| >= 1 && (('0' <= key[0] && key[0] < '9') || key == "9")
    ensures key == "." ==> r == Some(Decimal)
    ensures key == "+" ==> r == Some(Operator(Add))
    ensures key == "-" ==> r == Some(Operator(Sub))
    ensures key == "*" ==> r == Some(Operator(Mul))
    ensures key == "/" ==> r == Some(Operator(Div))
    ensures key == "Enter" || key == "=" ==> r == Some(Equals)
    ensures key == "Escape" ==> r == Some(ClearAll)
    ensures key == "Backspace" ==> r == Some(ClearLastEntry)
    ensures r.None? <==>
              !(|key| >= 1 && (('0' <= key[0] && key[0] < '9') || key == "9"))
              && key !in {".", "+", "-", "*", "/", "Enter", "=", "Escape", "Backspace"}
  {
    DigitTest(key);
    if LexLe("0", key) && LexLe(key, "9") then Some(Number(key))
    else if key == "." then Some(Decimal)
    else if key == "+" then Some(Operator(Add))
    else if key == "-" then Some(Operator(Sub))
    else if key == "*" then Some(Operator(Mul))
    else if key == "/" then Some(Operator(Div))
    else if key == "Enter" || key == "=" then Some(Equals)
    else if key == "Escape" then Some(ClearAll)
    else if key == "Backspace" then Some(ClearLastEntry)
    else None
  }

  lemma DigitTest(key: string)
    ensures LexLe("0", key) && LexLe(key, "9") <==> |key| >= 1 && (('0' <= key[0] && key[0] < '9') || key == "9")
  {
  }

  /* ---------------- Digit entry ---------------- */

  /** The digit buttons pressed in order. */
  function TypeDigits(c: Calc, ds: string): Calc
    decreases |ds|
  {
    if ds == [] then c else InputNumber(TypeDigits(c, ds[..|ds| - 1]), [ds[|ds| - 1]])
  }

  /** `ds` without its leading zeros. */
  function StripZeros(ds: string): (r: string)
    ensures r == [] || r[0] != '0'
  {
    if ds == [] then [] else if ds[0] == '0' then StripZeros(ds[1..]) else ds
  }

  lemma {:induction false} StripZerosSnoc(ds: string, d: char)
    ensures StripZeros(ds + [d]) ==
              if StripZeros(ds) == [] then (if d == '0' then [] else [d]) else StripZeros(ds) + [d]
  {
    if ds == [] {
      assert ds + [d] == [d];
      assert [d][1..] == [];
    } else {
      assert (ds + [d])[0] == ds[0];
      assert (ds + [d])[1..] == ds[1..] + [d];
      StripZerosSnoc(ds[1..], d);
    }
  }

  /** From the idle state, a run of digits shows exactly those digits with
      the leading zeros collapsed ("0" when they were all zeros). */
  lemma {:induction false} DigitsFromIdle(ds: string)
    requires forall i :: 0 <= i < |ds| ==> '0' <= ds[i] <= '9'
    ensures TypeDigits(Initial, ds).state ==
              InitialState.(display := if StripZeros(ds) == [] then "0" else StripZeros(ds))
    ensures TypeDigits(Initial, ds).history == []
    decreases |ds|
  {
    if ds != [] {
      var front, d := ds[..|ds| - 1], ds[|ds| - 1];
      DigitsFromIdle(front);
      assert ds == front + [d];
      StripZerosSnoc(front, d);
    }
  }

  /* ---------------- Decimal point ---------------- */

  /** A second decimal point right after the first changes nothing. */
  lemma DecimalIdempotent(c: Calc)
    ensures InputDecimal(InputDecimal(c)) == InputDecimal(c)
  {
  }

  predicate AtMostOneDot(s: string) {
    forall i, j :: 0 <= i < j < |s| && s[i] == '.' ==> s[j] != '.'
  }

  /** Outside an awaiting state (where the display is a captured operand or
      a result), the display holds at most one decimal point. */
  predicate SingleDot(c: Calc) {
    c.state.waiting || AtMostOneDot(c.state.display)
  }

  /** Digit tokens carry no decimal point (the keyboard digit test and the
      buttons only produce digit names). */
  predicate DotFreeToken(t: Token) {
    t.Number? ==> '.' !in t.num
  }

  lemma PressKeepsSingleDot(c: Calc, ar: Arith, t: Token)
    requires SingleDot(c) && DotFreeToken(t)
    ensures SingleDot(Press(c, ar, t))
  {
  }

  /* ---------------- State invariants ---------------- */

  /** The display is never empty and a pending operator always has a
      captured left operand. */
  predicate WellFormed(c: Calc) {
    c.state.display != "" && (c.state.operation.Some? ==> c.state.previousValue != "")
  }

  predicate NonEmptyToken(t: Token) {
    t.Number? ==> t.num != ""
  }

  lemma PressKeepsWellFormed(c: Calc, ar: Arith, t: Token)
    requires ValidArith(ar) && WellFormed(c) && NonEmptyToken(t)
    ensures WellFormed(Press(c, ar, t))
  {
  }

  /* ---------------- History ---------------- */

  function Reverse<T>(s: seq<T>): (r: seq<T>)
    ensures |r| == |s|
    ensures forall i :: 0 <= i < |s| ==> r[i] == s[|s| - 1 - i]
  {
    if s == [] then [] else [s[|s| - 1]] + Reverse(s[..|s| - 1])
  }

  /** History after the given completed operations, in the order performed. */
  function PushAll(h: seq<string>, entries: seq<string>): seq<string>
    decreases |entries|
  {
    if entries == [] then h
    else PushHistory(PushAll(h, entries[..|entries| - 1]), entries[|entries| - 1])
  }

  /** The history holds the five most recent entries, newest first, followed
      by as much of the earlier history as still fits. */
  lemma {:induction false} PushAllKeepsRecent(h: seq<string>, entries: seq<string>)
    requires |h| <= HistoryCap
    ensures var all := Reverse(entries) + h;
            PushAll(h, entries) == all[..Min(|all|, HistoryCap)]
    decreases |entries|
  {
    if entries != [] {
      var front, e := entries[..|entries| - 1], entries[|entries| - 1];
      PushAllKeepsRecent(h, front);
      var prev := Reverse(front) + h;
      var all := Reverse(entries) + h;
      assert Reverse(entries) == [e] + Reverse(front);
      assert all == [e] + prev;
      var x := prev[..Min(|prev|, HistoryCap)];
      assert x[..Min(|x|, HistoryCap - 1)] == prev[..Min(|prev|, HistoryCap - 1)];
      assert [e] + prev[..Min(|prev|, HistoryCap - 1)] == all[..Min(|all|, HistoryCap)];
    }
  }

  /** Six operations from an empty history leave exactly the last five,
      newest first. */
  lemma SixOperationsKeepFive(e: seq<string>)
    requires |e| == 6
    ensures PushAll([], e) == [e[5], e[4], e[3], e[2], e[1]]
  {
    PushAllKeepsRecent([], e);
    assert Reverse(e) + [] == [e[5], e[4], e[3], e[2], e[1], e[0]];
  }

  /* ---------------- The "=" with nothing pending ---------------- */

  /** A value captured without an operator, as "=" leaves it when nothing
      was pending. */
  predicate Locked(c: Calc) {
    c.state.previousValue != "" && c.state.operation.None?
  }

  /** "=" with nothing captured does not leave the state alone: it captures
      the display with no operator. */
  lemma EqualsWithNothingPendingLocks(c: Calc, ar: Arith)
    requires c.state.previousValue == "" && c.state.display != ""
    ensures Locked(Press(c, ar, Equals))
    ensures Press(c, ar, Equals).state.display == c.state.display
  {
  }

  /** Once locked, every token but "C" keeps it locked, every operator and
      "=" is ignored, and the history never grows. */
  lemma LockedUntilClear(c: Calc, ar: Arith, t: Token)
    requires Locked(c) && t != ClearAll
    ensures Locked(Press(c, ar, t))
    ensures Press(c, ar, t).history == c.history
    ensures (t.Operator? || t == Equals) ==> Press(c, ar, t) == c
  {
  }

  /** An operand and an operator are both waiting to be applied. */
  predicate Pending(c: Calc) {
    c.state.previousValue != "" && c.state.operation.Some?
  }

  /** The evidently intended "=": with nothing pending it changes nothing;
      otherwise it is the code's `performOperation`. */
  function PerformOperationIntended(c: Calc, ar: Arith, next: Option<Op>): (r: Calc)
    ensures next.None? && !Pending(c) ==> r == c
    ensures next.None? && Pending(c) ==> !Pending(r) && r.state.waiting
    ensures next.Some? && !Locked(c) ==> r.state.operation == next || r.state == ErrorState
    ensures !(next.None? && !Pending(c)) ==> r == PerformOperation(c, ar, next)
  {
    if next.None? && !Pending(c) then c else PerformOperation(c, ar, next)
  }

  function PressIntended(c: Calc, ar: Arith, t: Token): Calc {
    match t
    case Operator(op) => PerformOperationIntended(c, ar, Some(op))
    case Equals => PerformOperationIntended(c, ar, None)
    case _ => Press(c, ar, t)
  }

  /** With the intended "=", no state ever holds a captured value without an
      operator, so every operator press takes effect. */
  lemma IntendedNeverLocks(c: Calc, ar: Arith, t: Token)
    requires !Locked(c)
    ensures !Locked(PressIntended(c, ar, t))
    ensures t.Operator? ==> PressIntended(c, ar, t).state.operation == Some(t.op)
                            || PressIntended(c, ar, t).state == ErrorState
  {
  }

  /* ---------------- Worked sequences ---------------- */

  lemma PressAllSnoc(c: Calc, ar: Arith, ts: seq<Token>, t: Token)
    ensures PressAll(c, ar, ts + [t]) == Press(PressAll(c, ar, ts), ar, t)
  {
    assert (ts + [t])[..|ts|] == ts;
  }

  /** 8 / 0 = shows "Error" with nothing recorded; a following 5 shows "5". */
  lemma DivisionByZeroScenario(ar: Arith)
    requires ar.parsesToZero("0")
    ensures var c := PressAll(Initial, ar, [Number("8"), Operator(Div), Number("0"), Equals]);
            c.state == ErrorState && c.history == []
    ensures PressAll(Initial, ar, [Number("8"), Operator(Div), Number("0"), Equals, Number("5")]).state.display == "5"
  {
    var t1, t2, t3, t4, t5 := Number("8"), Operator(Div), Number("0"), Equals, Number("5");
    PressAllSnoc(Initial, ar, [], t1);
    assert [] + [t1] == [t1];
    PressAllSnoc(Initial, ar, [t1], t2);
    assert [t1] + [t2] == [t1, t2];
    PressAllSnoc(Initial, ar, [t1, t2], t3);
    assert [t1, t2] + [t3] == [t1, t2, t3];
    PressAllSnoc(Initial, ar, [t1, t2, t3], t4);
    assert [t1, t2, t3] + [t4] == [t1, t2, t3, t4];
    PressAllSnoc(Initial, ar, [t1, t2, t3, t4], t5);
    assert [t1, t2, t3, t4] + [t5] == [t1, t2, t3, t4, t5];
  }

  /** 2 + 3 * 4 = folds left to right: (2 + 3) * 4, two history entries. */
  lemma ChainScenario(ar: Arith)
    requires ar.compute(Add, "2", "3") != ""
    ensures var sum := ar.compute(Add, "2", "3");
            var product := ar.compute(Mul, sum, "4");
            var c := PressAll(Initial, ar, [Number("2"), Operator(Add), Number("3"), Operator(Mul), Number("4"), Equals]);
            && c.state == CalcState(product, "", None, true)
            && c.history == [HistoryEntry(sum, Mul, "4", product), HistoryEntry("2", Add, "3", sum)]
  {
    var t1, t2, t3, t4, t5, t6 := Number("2"), Operator(Add), Number("3"), Operator(Mul), Number("4"), Equals;
    PressAllSnoc(Initial, ar, [], t1);
    assert [] + [t1] == [t1];
    PressAllSnoc(Initial, ar, [t1], t2);
    assert [t1] + [t2] == [t1, t2];
    PressAllSnoc(Initial, ar, [t1, t2], t3);
    assert [t1, t2] + [t3] == [t1, t2, t3];
    PressAllSnoc(Initial, ar, [t1, t2, t3], t4);
    assert [t1, t2, t3] + [t4] == [t1, t2, t3, t4];
    PressAllSnoc(Initial, ar, [t1, t2, t3, t4], t5);
    assert [t1, t2, t3, t4] + [t5] == [t1, t2, t3, t4, t5];
    PressAllSnoc(Initial, ar, [t1, t2, t3, t4, t5], t6);
    assert [t1, t2, t3, t4, t5] + [t6] == [t1, t2, t3, t4, t5, t6];
    var sum := ar.compute(Add, "2", "3");
    var first := PushHistory([], HistoryEntry("2", Add, "3", sum));
    assert first == [HistoryEntry("2", Add, "3", sum)];
  }

  /** 5 + = uses the captured operand on both sides. */
  lemma OperandReuseScenario(ar: Arith)
    ensures PressAll(Initial, ar, [Number("5"), Operator(Add), Equals]).state.display == ar.compute(Add, "5", "5")
  {
    var t1, t2, t3 := Number("5"), Operator(Add), Equals;
    PressAllSnoc(Initial, ar, [], t1);
    assert [] + [t1] == [t1];
    PressAllSnoc(Initial, ar, [t1], t2);
    assert [t1] + [t2] == [t1, t2];
    PressAllSnoc(Initial, ar, [t1, t2], t3);
    assert [t1, t2] + [t3] == [t1, t2, t3];
  }

  /** CE after 5 + 3 keeps the pending 5 +, so 7 = computes 5 + 7. */
  lemma ClearEntryScenario(ar: Arith)
    ensures PressAll(Initial, ar, [Number("5"), Operator(Add), Number("3"), ClearLastEntry]).state
              == CalcState("0", "5", Some(Add), false)
    ensures PressAll(Initial, ar, [Number("5"), Operator(Add), Number("3"), ClearLastEntry, Number("7"), Equals]).state.display
              == ar.compute(Add, "5", "7")
  {
    var t1, t2, t3, t4, t5, t6 := Number("5"), Operator(Add), Number("3"), ClearLastEntry, Number("7"), Equals;
    PressAllSnoc(Initial, ar, [], t1);
    assert [] + [t1] == [t1];
    PressAllSnoc(Initial, ar, [t1], t2);
    assert [t1] + [t2] == [t1, t2];
    PressAllSnoc(Initial, ar, [t1, t2], t3);
    assert [t1, t2] + [t3] == [t1, t2, t3];
    PressAllSnoc(Initial, ar, [t1, t2, t3], t4);
    assert [t1, t2, t3] + [t4] == [t1, t2, t3, t4];
    PressAllSnoc(Initial, ar, [t1, t2, t3, t4], t5);
    assert [t1, t2, t3, t4] + [t5] == [t1, t2, t3, t4, t5];
    PressAllSnoc(Initial, ar, [t1, t2, t3, t4, t5], t6);
    assert [t1, t2, t3, t4, t5] + [t6] == [t1, t2, t3, t4, t5, t6];
  }
}

=== FILE: carousel.dfy ===
/**
  The image carousel's index machine: next and previous wrap around, a dot
  jumps to a slide, and every move takes a transition lock that only the
  end-of-transition timer releases. The timers become explicit events.
 */
module Carousel {

  datatype Carousel = Carousel(index: int, playing: bool, transitioning: bool)

  function Init(autoPlay: bool): (c: Carousel)
    ensures c.index == 0 && c.playing == autoPlay && !c.transitioning
  {
    Carousel(0, autoPlay, false)
  }

  /** JavaScript's `a % n`: the remainder takes the sign of `a`. */
  function JsRem(a: int, n: int): (r: int)
    requires n > 0
    ensures 0 <= a ==> 0 <= r < n
    ensures 0 <= a < n ==> r == a
    ensures a == n ==> r == 0
    ensures a < 0 ==> -n < r <= 0
  {
    if a >= 0 then
      if a < n then a else if a == n then 0 else a % n
    else -((-a) % n)
  }

  /** The remainder differs from `a` by a multiple of `n`; with the range
      above this fixes it uniquely. */
  lemma JsRemCongruent(a: int, n: int)
    requires n > 0
    ensures (a - JsRem(a, n)) % n == 0
  {
    var r := JsRem(a, n);
    if a < 0 {
      var b := -a;
      var q := b / n;
      assert b == q * n + b % n;
      assert a - r == (-q) * n;
      MultipleRem(-q, n);
    } else if a > n {
      var q := a / n;
      assert a == q * n + a % n;
      assert a - r == q * n;
      MultipleRem(q, n);
    } else if a == n {
      MultipleRem(1, n);
    } else {
      MultipleRem(0, n);
    }
  }

  /** A positive multiple of a positive `n` is at least `n`. */
  lemma MultipleAtLeast(e: int, n: int)
    requires e > 0 && n > 0
    ensures e * n >= n
  {
    var k := e - 1;
    assert e * n == k * n + n;
    assert k * n >= 0;
  }

  /** A multiple of `n` leaves no remainder. */
  lemma MultipleRem(q: int, n: int)
    requires n > 0
    ensures (q * n) % n == 0
  {
    var x := q * n;
    var d, m := x / n, x % n;
    assert x == d * n + m;
    var e := q - d;
    assert e * n == m by { assert e * n == q * n - d * n; }
    if e > 0 {
      MultipleAtLeast(e, n);
    } else if e < 0 {
      MultipleAtLeast(-e, n);
    }
  }

  /** `nextSlide`: ignored during a transition; otherwise takes the lock and
      moves one slide forward, wrapping at the end. */
  function Next(c: Carousel, n: int): (r: Carousel)
    requires n > 0
    ensures c.transitioning ==> r == c
    ensures !c.transitioning && 0 <= c.index < n ==>
              r.transitioning && r.playing == c.playing
              && r.index == (if c.index == n - 1 then 0 else c.index + 1)
  {
    if c.transitioning then c
    else c.(transitioning := true, index := JsRem(c.index + 1, n))
  }

  /** `prevSlide`: as `Next`, one slide back. */
  function Prev(c: Carousel, n: int): (r: Carousel)
    requires n > 0
    ensures c.transitioning ==> r == c
    ensures !c.transitioning && 0 <= c.index < n ==>
              r.transitioning && r.playing == c.playing
              && r.index == (if c.index == 0 then n - 1 else c.index - 1)
  {
    if c.transitioning then c
    else c.(transitioning := true, index := JsRem(c.index - 1 + n, n))
  }

  /** `goToSlide`: the index is taken as given. */
  function GoTo(c: Carousel, i: int): (r: Carousel)
    ensures c.transitioning ==> r == c
    ensures !c.transitioning ==> r == c.(index := i, transitioning := true)
  {
    if c.transitioning then c else c.(index := i, transitioning := true)
  }

  /** The 300 ms timer set by a move has fired. */
  function TransitionEnd(c: Carousel): (r: Carousel)
    ensures !r.transitioning && r.index == c.index && r.playing == c.playing
  {
    c.(transitioning := false)
  }

  /** The play/pause button. The component renders it only when `autoPlay`
      is set and there is more than one slide; the model offers it always,
      so with `autoPlay` off it reaches auto-advancing states the component
      cannot. */
  function TogglePlayPause(c: Carousel): (r: Carousel)
    ensures r.playing == !c.playing && r.index == c.index && r.transitioning == c.transitioning
  {
    c.(playing := !c.playing)
  }

  /** The autoplay interval fires; it exists only while playing with more
      than one slide. */
  function Tick(c: Carousel, n: int): (r: Carousel)
    requires n > 0
    ensures !c.playing || n <= 1 ==> r == c
    ensures c.playing && n > 1 ==> r == Next(c, n)
  {
    if c.playing && n > 1 then Next(c, n) else c
  }

  /** The play/pause button switches the autoplay interval: once paused a
      tick changes nothing, once resumed with several slides a tick is an
      arrow press forward, and pressing the button twice restores the state. */
  lemma PlayPauseControlsTick(c: Carousel, n: int)
    requires n > 0
    ensures c.playing ==> Tick(TogglePlayPause(c), n) == TogglePlayPause(c)
    ensures !c.playing && n > 1 ==> Tick(TogglePlayPause(c), n) == Next(TogglePlayPause(c), n)
    ensures TogglePlayPause(TogglePlayPause(c)) == c
  {
  }

  /** Arrows and autoplay keep the index on a real slide. */
  lemma MovesStayInRange(c: Carousel, n: int)
    requires n > 0 && 0 <= c.index < n
    ensures 0 <= Next(c, n).index < n
    ensures 0 <= Prev(c, n).index < n
    ensures 0 <= Tick(c, n).index < n
  {
  }

  /** The dot buttons pass 0..n-1 only. */
  lemma DotsStayInRange(c: Carousel, n: int, dot: int)
    requires 0 <= c.index < n && 0 <= dot < n
    ensures 0 <= GoTo(c, dot).index < n
  {
  }

  /** With the lock released in between, Prev undoes Next and Next undoes Prev. */
  lemma NextPrevInverse(c: Carousel, n: int)
    requires n > 0 && 0 <= c.index < n && !c.transitioning
    ensures TransitionEnd(Prev(TransitionEnd(Next(c, n)), n)) == c
    ensures TransitionEnd(Next(TransitionEnd(Prev(c, n)), n)) == c
  {
  }

  /** k forward moves, each followed by the end of its transition. */
  function Forward(c: Carousel, n: int, k: nat): (r: Carousel)
    requires n > 0
  {
    if k == 0 then c else TransitionEnd(Next(Forward(c, n, k - 1), n))
  }

  lemma {:induction false} ForwardSplit(c: Carousel, n: int, a: nat, b: nat)
    requires n > 0
    ensures Forward(c, n, a + b) == Forward(Forward(c, n, a), n, b)
  {
    if b > 0 {
      ForwardSplit(c, n, a, b - 1);
    }
  }

  /** Before the last slide, k moves advance the index by k. */
  lemma {:induction false} ForwardAdvances(c: Carousel, n: int, k: nat)
    requires n > 0 && 0 <= c.index && c.index + k < n && !c.transitioning
    ensures Forward(c, n, k) == c.(index := c.index + k)
  {
    if k > 0 {
      ForwardAdvances(c, n, k - 1);
    }
  }

  /** n forward moves come back to the starting slide. */
  lemma FullCycle(c: Carousel, n: int)
    requires n > 0 && 0 <= c.index < n && !c.transitioning
    ensures Forward(c, n, n) == c
  {
    var toLast := n - 1 - c.index;
    ForwardAdvances(c, n, toLast);
    var last := c.(index := n - 1);
    var first := c.(index := 0);
    assert Forward(last, n, 1) == first;
    ForwardSplit(c, n, toLast, 1);
    ForwardAdvances(first, n, c.index);
    ForwardSplit(c, n, toLast + 1, c.index);
  }
}

=== FILE: common.dfy ===
/**
  Shared vocabulary for the UI-state models: an Option type, the JavaScript
  notion of white space (used by `String.prototype.trim` and by `\s` in a
  regular expression), and the two list filters the components use.
 */
module Common {

  datatype Option<+T> = None | Some(value: T) {
    function GetOr(default: T): T {
      match this
      case Some(v) => v
      case None => default
    }
  }

  function Min(a: int, b: int): int { if a <= b then a else b }
  function Max(a: int, b: int): int { if a <= b then b else a }

  /** JavaScript WhiteSpace and LineTerminator code points: the set that both
      `trim` removes and `\s` matches. */
  predicate IsWhitespace(c: char) {
    var n := c as int;
    || n == 0x09 || n == 0x0A || n == 0x0B || n == 0x0C || n == 0x0D
    || n == 0x20 || n == 0xA0 || n == 0x1680
    || (0x2000 <= n <= 0x200A)
    || n == 0x2028 || n == 0x2029 || n == 0x202F || n == 0x205F
    || n == 0x3000 || n == 0xFEFF
  }

  /** No character of `s` is white space (every character matches `\S`). */
  predicate NoWhitespace(s: string) {
    forall i :: 0 <= i < |s| ==> !IsWhitespace(s[i])
  }

  /** Every character of `s` is white space: `s.trim()` is the empty, falsy string. */
  predicate IsBlank(s: string) {
    forall i :: 0 <= i < |s| ==> IsWhitespace(s[i])
  }

  /** `s` with its leading white space removed. */
  function TrimStart(s: string): (r: string)
    ensures |r| <= |s| && r == s[|s| - |r|..]
    ensures r == [] || !IsWhitespace(r[0])
    ensures IsBlank(s[..|s| - |r|])
  {
    if s == [] || !IsWhitespace(s[0]) then s
    else
      var r := TrimStart(s[1..]);
      assert s[1..][..|s[1..]| - |r|] == s[1..|s| - |r|];
      r
  }

  /** `s` with its trailing white space removed. */
  function TrimEnd(s: string): (r: string)
    ensures |r| <= |s| && r == s[..|r|]
    ensures r == [] || !IsWhitespace(r[|r| - 1])
    ensures IsBlank(s[|r|..])
  {
    if s == [] || !IsWhitespace(s[|s| - 1]) then s
    else
      var r := TrimEnd(s[..|s| - 1]);
      assert s[..|s| - 1][|r|..] == s[|r|..|s| - 1];
      r
  }

  /** `String.prototype.trim`: white space removed from both ends. The result
      is empty exactly when `s` is blank, which is how `!s.trim()` decides that
      a field was left empty. */
  function Trim(s: string): (r: string)
    ensures |r| <= |s|
    ensures r == [] <==> IsBlank(s)
    ensures r == [] || (!IsWhitespace(r[0]) && !IsWhitespace(r[|r| - 1]))
  {
    var t := TrimStart(s);
    if t == [] then
      assert s[..|s| - |t|] == s;
      TrimEnd(t)
    else
      assert !IsWhitespace(s[|s| - |t|]);
      TrimEnd(t)
  }

  /** The trimmed string is a contiguous piece of `s`, and what was cut off
      on either side is white space. */
  lemma TrimPieces(s: string)
    ensures exists i :: 0 <= i <= |s| - |Trim(s)| && Trim(s) == s[i..i + |Trim(s)|]
                        && IsBlank(s[..i]) && IsBlank(s[i + |Trim(s)|..])
  {
    var t := TrimStart(s);
    var r := TrimEnd(t);
    var i := |s| - |t|;
    assert r == Trim(s);
    assert s[i..i + |r|] == t[..|r|];
    assert s[i + |r|..] == t[|r|..];
  }

  /** The `length` of a JavaScript string: the number of UTF-16 code units,
      where a code point above U+FFFF takes a surrogate pair. */
  function Utf16Length(s: string): (r: nat)
    ensures |s| <= r <= 2 * |s|
    ensures r == |s| <==> forall i :: 0 <= i < |s| ==> s[i] as int <= 0xFFFF
  {
    if s == [] then 0
    else (if s[0] as int <= 0xFFFF then 1 else 2) + Utf16Length(s[1..])
  }

  /** Lengths add up over concatenation; with the bounds above this fixes
      the count for every string, one character at a time. */
  lemma {:induction false} Utf16LengthConcat(a: string, b: string)
    ensures Utf16Length(a + b) == Utf16Length(a) + Utf16Length(b)
    decreases |a|
  {
    if a == [] {
      assert a + b == b;
    } else {
      assert (a + b)[0] == a[0] && (a + b)[1..] == a[1..] + b;
      Utf16LengthConcat(a[1..], b);
    }
  }

  /** `xs.filter(y => y !== x)`: every copy of `x` removed, the rest kept in order. */
  function RemoveAll<T(==)>(xs: seq<T>, x: T): (r: seq<T>)
    ensures x !in r
    ensures multiset(r) == multiset(xs)[x := 0]
    ensures |r| <= |xs|
  {
    if xs == [] then []
    else
      assert xs == [xs[0]] + xs[1..];
      if xs[0] == x then RemoveAll(xs[1..], x) else [xs[0]] + RemoveAll(xs[1..], x)
  }

  /** `xs.filter(y => !excluded.includes(y))`. */
  function FilterOut<T(==)>(xs: seq<T>, excluded: seq<T>): (r: seq<T>)
    ensures forall y :: y in excluded ==> y !in r
    ensures forall y :: y in r ==> y in xs && y !in excluded
    ensures forall i :: 0 <= i < |xs| && xs[i] !in excluded ==> xs[i] in r
    ensures |r| <= |xs|
  {
    if xs == [] then []
    else
      assert xs == [xs[0]] + xs[1..];
      if xs[0] in excluded then FilterOut(xs[1..], excluded)
      else [xs[0]] + FilterOut(xs[1..], excluded)
  }

  /** Filtering is applied element by element, so it keeps the relative order
      of what it keeps: filtering a concatenation filters each part. */
  lemma {:induction false} RemoveAllConcat<T>(a: seq<T>, b: seq<T>, x: T)
    ensures RemoveAll(a + b, x) == RemoveAll(a, x) + RemoveAll(b, x)
  {
    if a == [] {
      assert a + b == b;
    } else {
      assert (a + b)[0] == a[0];
      assert (a + b)[1..] == a[1..] + b;
      RemoveAllConcat(a[1..], b, x);
      if a[0] != x {
        var u, v := RemoveAll(a[1..], x), RemoveAll(b, x);
        assert [a[0]] + (u + v) == ([a[0]] + u) + v;
      }
    }
  }

  lemma {:induction false} FilterOutConcat<T>(a: seq<T>, b: seq<T>, excluded: seq<T>)
    ensures FilterOut(a + b, excluded) == FilterOut(a, excluded) + FilterOut(b, excluded)
  {
    if a == [] {
      assert a + b == b;
    } else {
      assert (a + b)[0] == a[0];
      assert (a + b)[1..] == a[1..] + b;
      FilterOutConcat(a[1..], b, excluded);
      if a[0] !in excluded {
        var x, y := FilterOut(a[1..], excluded), FilterOut(b, excluded);
        assert [a[0]] + (x + y) == ([a[0]] + x) + y;
      }
    }
  }

  /** Excluding one more value is the same as filtering it out afterwards. */
  lemma {:induction false} FilterOutExtend<T>(xs: seq<T>, excluded: seq<T>, x: T)
    ensures FilterOut(xs, excluded + [x]) == RemoveAll(FilterOut(xs, excluded), x)
  {
    if xs != [] {
      FilterOutExtend(xs[1..], excluded, x);
      if xs[0] !in excluded {
        var rest := FilterOut(xs[1..], excluded);
        assert ([xs[0]] + rest)[1..] == rest;
      }
    }
  }
}

=== FILE: form.dfy ===
/**
  The validation form: five fields, a validator that maps each failing field
  to a message, a change handler for text inputs, the gender select and the
  subject checkboxes, and the submit decision.
 */
module FormValidation {
  import opened Common
  import opened Patterns

  datatype FormData = FormData(name: string, email: string, phone: string, gender: string, subject: seq<string>)

  const EmptyForm := FormData("", "", "", "", [])

  /** One optional message per field; `None` is a key that is absent (or
      was set to `undefined`), which shows no error. */
  datatype Errors = Errors(name: Option<string>, email: Option<string>, phone: Option<string>,
                           gender: Option<string>, subject: Option<string>)
  {
    /** `Object.keys(errors).length === 0` for an object built by `validate`. */
    predicate IsEmpty() {
      name.None? && email.None? && phone.None? && gender.None? && subject.None?
    }

    /** `errors[key]` */
    function Get(key: string): Option<string> {
      if key == "name" then name
      else if key == "email" then email
      else if key == "phone" then phone
      else if key == "gender" then gender
      else if key == "subject" then subject
      else None
    }

    /** `{ ...errors, [key]: undefined }` */
    function Without(key: string): (r: Errors)
      ensures r.Get(key).None?
      ensures forall k :: k != key ==> r.Get(k) == Get(k)
    {
      if key == "name" then this.(name := None)
      else if key == "email" then this.(email := None)
      else if key == "phone" then this.(phone := None)
      else if key == "gender" then this.(gender := None)
      else if key == "subject" then this.(subject := None)
      else this
    }
  }

  const NoErrors := Errors(None, None, None, None, None)

  const NameRequired := "Name is required"
  const NameLetters := "Name must contain only letters"
  const EmailRequired := "Email is required"
  const EmailInvalid := "Email is invalid"
  const PhoneRequired := "Phone is required"
  const PhoneDigits := "Phone must be 10 digits"
  const GenderRequired := "Gender is required"
  const SubjectRequired := "Select at least one subject"

  predicate IsAsciiLetter(c: char) {
    ('A' <= c <= 'Z') || ('a' <= c <= 'z')
  }

  predicate IsAsciiDigit(c: char) {
    '0' <= c <= '9'
  }

  /** `/^[A-Za-z ]+$/.test(s)` */
  predicate MatchesName(s: string) {
    |s| > 0 && forall i :: 0 <= i < |s| ==> IsAsciiLetter(s[i]) || s[i] == ' '
  }

  /** `/^\d{10}$/.test(s)` */
  predicate MatchesPhone(s: string) {
    |s| == 10 && forall i :: 0 <= i < |s| ==> IsAsciiDigit(s[i])
  }

  /** A field's check: required when blank, else the format message when the
      pattern fails, else no error. */
  function Check(value: string, matches: bool, required: string, format: string): Option<string> {
    if Trim(value) == [] then Some(required)
    else if !matches then Some(format)
    else None
  }

  /** `validate(data)`. Each key's presence and message is stated in terms of
      that field alone, and "required" wins over the format message. */
  function Validate(d: FormData): (r: Errors)
    ensures r.name.Some? <==> IsBlank(d.name) || !MatchesName(d.name)
    ensures r.name.Some? ==> r.name.value == if IsBlank(d.name) then NameRequired else NameLetters
    ensures r.email.Some? <==> IsBlank(d.email) || !MatchesEmail(d.email)
    ensures r.email.Some? ==> r.email.value == if IsBlank(d.email) then EmailRequired else EmailInvalid
    ensures r.phone.Some? <==> IsBlank(d.phone) || !MatchesPhone(d.phone)
    ensures r.phone.Some? ==> r.phone.value == if IsBlank(d.phone) then PhoneRequired else PhoneDigits
    ensures r.gender.Some? <==> d.gender == ""
    ensures r.gender.Some? ==> r.gender.value == GenderRequired
    ensures r.subject.Some? <==> |d.subject| == 0
    ensures r.subject.Some? ==> r.subject.value == SubjectRequired
  {
    Errors(
      Check(d.name, MatchesName(d.name), NameRequired, NameLetters),
      Check(d.email, MatchesEmail(d.email), EmailRequired, EmailInvalid),
      Check(d.phone, MatchesPhone(d.phone), PhoneRequired, PhoneDigits),
      if d.gender == "" then Some(GenderRequired) else None,
      if |d.subject| == 0 then Some(SubjectRequired) else None)
  }

  /** The empty form fails every check with the "required" message. */
  lemma EmptyFormFailsEverywhere()
    ensures Validate(EmptyForm) == Errors(Some(NameRequired), Some(EmailRequired), Some(PhoneRequired),
                                          Some(GenderRequired), Some(SubjectRequired))
  {
  }

  /** A completely filled-in form passes. */
  lemma FilledFormPasses()
    ensures Validate(FormData("Riya Sharma", "riya@gmail.com", "9876543210", "Female", ["science"])) == NoErrors
  {
    FilledNamePasses();
    FilledEmailPasses();
    FilledPhonePasses();
  }

  lemma FilledNamePasses()
    ensures Check("Riya Sharma", MatchesName("Riya Sharma"), NameRequired, NameLetters).None?
  {
    var s := "Riya Sharma";
    assert MatchesName(s);
    assert !IsBlank(s) by { assert !IsWhitespace(s[0]); }
  }

  lemma FilledEmailPasses()
    ensures Check("riya@gmail.com", MatchesEmail("riya@gmail.com"), EmailRequired, EmailInvalid).None?
  {
    var s := "riya@gmail.com";
    assert MatchesEmail(s) by {
      assert EmailSplitAt(s, 4, 10);
      forall i | 0 <= i < |s|
        ensures !IsWhitespace(s[i])
      {
        assert s[i] as int > 0x20 && s[i] as int < 0x7F;
      }
    }
    assert !IsBlank(s) by { assert !IsWhitespace(s[0]); }
  }

  lemma FilledPhonePasses()
    ensures Check("9876543210", MatchesPhone("9876543210"), PhoneRequired, PhoneDigits).None?
  {
    var s := "9876543210";
    assert MatchesPhone(s);
    assert !IsBlank(s) by { assert !IsWhitespace(s[0]); }
  }

  /* ---------------- Change events ---------------- */

  datatype TextField = NameField | EmailField | PhoneField | GenderField

  function FieldKey(f: TextField): string {
    match f
    case NameField => "name"
    case EmailField => "email"
    case PhoneField => "phone"
    case GenderField => "gender"
  }

  function FieldValue(d: FormData, f: TextField): string {
    match f
    case NameField => d.name
    case EmailField => d.email
    case PhoneField => d.phone
    case GenderField => d.gender
  }

  /** A text input or the select (named by its field), or a subject
      checkbox with its `name`, `value` and new `checked` state. */
  datatype Change =
    | FieldChange(field: TextField, value: string)
    | CheckboxChange(name: string, value: string, checked: bool)

  /** The `name` attribute of the input that fired the event. */
  function ChangeKey(ch: Change): string {
    match ch
    case FieldChange(f, _) => FieldKey(f)
    case CheckboxChange(name, _, _) => name
  }

  /** The three subject checkboxes are named after their subject. */
  const SubjectBoxes: set<string> := {"mathematics", "science", "english"}

  datatype FormState = FormState(data: FormData, errors: Errors)

  function SetField(d: FormData, f: TextField, v: string): (r: FormData)
    ensures FieldValue(r, f) == v
    ensures forall g :: g != f ==> FieldValue(r, g) == FieldValue(d, g)
    ensures r.subject == d.subject
  {
    match f
    case NameField => d.(name := v)
    case EmailField => d.(email := v)
    case PhoneField => d.(phone := v)
    case GenderField => d.(gender := v)
  }

  /** `handleChange`. The error cleared is the one stored under the input's
      own name, whatever field it changed. */
  function HandleChange(st: FormState, ch: Change): (r: FormState)
    ensures ch.FieldChange? ==> r.data == SetField(st.data, ch.field, ch.value)
    ensures ch.CheckboxChange? && ch.checked ==>
              r.data == st.data.(subject := st.data.subject + [ch.value])
    ensures ch.CheckboxChange? && !ch.checked ==>
              r.data == st.data.(subject := RemoveAll(st.data.subject, ch.value))
    ensures r.errors.Get(ChangeKey(ch)).None?
    ensures forall k :: k != ChangeKey(ch) ==> r.errors.Get(k) == st.errors.Get(k)
  {
    var data :=
      match ch
      case FieldChange(f, v) => SetField(st.data, f, v)
      case CheckboxChange(_, v, checked) =>
        st.data.(subject := if checked then st.data.subject + [v] else RemoveAll(st.data.subject, v));
    FormState(data, st.errors.Without(ChangeKey(ch)))
  }

  /** Ticking a subject box never clears the "subject" error, because the
      key cleared is the box's own name. */
  lemma SubjectErrorSurvivesCheckbox(st: FormState, name: string, value: string, checked: bool)
    requires name in SubjectBoxes
    ensures HandleChange(st, CheckboxChange(name, value, checked)).errors.subject == st.errors.subject
  {
  }

  /** Ticking appends even a value already present; unticking then removes
      every copy. */
  lemma CheckboxAppendsThenRemovesAll(st: FormState, name: string, value: string)
    ensures var ticked := HandleChange(st, CheckboxChange(name, value, true));
            && multiset(ticked.data.subject)[value] == multiset(st.data.subject)[value] + 1
            && value !in HandleChange(ticked, CheckboxChange(name, value, false)).data.subject
  {
  }

  /* ---------------- Submit ---------------- */

  /** The new state, and the data written to storage when it was saved. */
  datatype SubmitResult = SubmitResult(state: FormState, saved: Option<FormData>)

  /** `handleSubmit`: the errors are always replaced by a fresh validation;
      only a form with no errors is saved, and then every field is reset. */
  function HandleSubmit(st: FormState): (r: SubmitResult)
    ensures r.state.errors == Validate(st.data)
    ensures r.saved.Some? <==> Validate(st.data).IsEmpty()
    ensures r.saved.Some? ==> r.saved.value == st.data && r.state.data == EmptyForm
    ensures r.saved.None? ==> r.state.data == st.data
  {
    var errors := Validate(st.data);
    if errors.IsEmpty() then SubmitResult(FormState(EmptyForm, errors), Some(st.data))
    else SubmitResult(FormState(st.data, errors), None)
  }

  /** A successful submit leaves the empty form, whatever errors are
      showing; submitting it saves nothing and shows every "required"
      message. */
  lemma SubmitAfterSaveSavesNothing(errors: Errors)
    ensures HandleSubmit(FormState(EmptyForm, errors)).saved.None?
    ensures HandleSubmit(FormState(EmptyForm, errors)).state.errors
              == Errors(Some(NameRequired), Some(EmailRequired), Some(PhoneRequired),
                        Some(GenderRequired), Some(SubjectRequired))
  {
    EmptyFormFailsEverywhere();
  }
}

=== FILE: pagination.dfy ===
/**
  The paginated product grid: page count, the ten-item window of the
  current page, next/previous/direct page changes, the page-button bar and
  the slice of products shown.
 */
module Pagination {
  import opened Common

  const ProductsPerPage := 10

  /** `Math.ceil(count / productsPerPage)` */
  function TotalPages(count: nat): (r: nat)
    ensures r * ProductsPerPage >= count
    ensures r == 0 || (r - 1) * ProductsPerPage < count
    ensures r == 0 <==> count == 0
  {
    (count + ProductsPerPage - 1) / ProductsPerPage
  }

  /** First index shown on `page` (1-based). */
  function WindowStart(page: int): int {
    (page - 1) * ProductsPerPage
  }

  /** One past the last index shown on `page`. */
  function WindowEnd(page: int): (r: int)
    ensures r - WindowStart(page) == ProductsPerPage
  {
    WindowStart(page) + ProductsPerPage
  }

  /** Every product index lies in the window of exactly one page, and that
      page exists: the windows of pages 1..TotalPages split [0, count). */
  function PageOf(k: nat): (p: int)
    ensures WindowStart(p) <= k < WindowEnd(p)
    ensures forall q :: WindowStart(q) <= k < WindowEnd(q) ==> q == p
  {
    var p := k / ProductsPerPage + 1;
    assert k == (p - 1) * ProductsPerPage + k % ProductsPerPage;
    p
  }

  lemma PageOfInRange(k: nat, count: nat)
    requires k < count
    ensures 1 <= PageOf(k) <= TotalPages(count)
  {
  }

  /* ---------------- Page changes ---------------- */

  datatype PageEvent = GoTo(page: int) | NextClick | PrevClick

  /** `handlePageChange`, `handleNextPage` and `handlePrevPage`. */
  function ChangePage(current: int, total: nat, e: PageEvent): (r: int)
    ensures e.GoTo? ==> r == e.page
    ensures e.NextClick? ==> r == if current < total then current + 1 else current
    ensures e.PrevClick? ==> r == if current > 1 then current - 1 else current
  {
    match e
    case GoTo(p) => p
    case NextClick => if current < total then current + 1 else current
    case PrevClick => if current > 1 then current - 1 else current
  }

  /** The page numbers the bar offers, 1..total. */
  predicate OfferedPage(p: int, total: nat) { 1 <= p <= total }

  /** Starting from page 1, the page stays within 1..max(1, total) under
      Next, Prev and the page buttons. */
  lemma PageStaysInRange(current: int, total: nat, e: PageEvent)
    requires 1 <= current <= Max(1, total)
    requires e.GoTo? ==> OfferedPage(e.page, total)
    ensures 1 <= ChangePage(current, total, e) <= Max(1, total)
  {
  }

  /* ---------------- The page bar ---------------- */

  /** `[...Array(totalPages).keys()]` rendered as labels `i + 1`; button i
      requests page `i + 1`. */
  function PageButtons(total: nat): (r: seq<int>)
    ensures |r| == total
    ensures forall i :: 0 <= i < total ==> r[i] == i + 1
  {
    if total == 0 then [] else PageButtons(total - 1) + [total]
  }

  /** How many of the buttons carry the active style. */
  function ActiveCount(current: int, labels: seq<int>): nat {
    if labels == [] then 0
    else (if labels[|labels| - 1] == current then 1 else 0) + ActiveCount(current, labels[..|labels| - 1])
  }

  /** Exactly one button is active when the current page is one of 1..total,
      and none otherwise. */
  lemma {:induction false} ExactlyOneActive(current: int, total: nat)
    ensures ActiveCount(current, PageButtons(total)) == if 1 <= current <= total then 1 else 0
  {
    if total > 0 {
      var b := PageButtons(total);
      assert b[..|b| - 1] == PageButtons(total - 1);
      ExactlyOneActive(current, total - 1);
    }
  }

  /** Prev is disabled on page 1, Next on the last page. */
  predicate PrevDisabled(current: int) { current == 1 }
  predicate NextDisabled(current: int, total: nat) { current == total }

  /** On a page in range, an arrow is disabled exactly when clicking it would
      leave the page where it is. */
  lemma DisabledMeansInert(current: int, total: nat)
    requires 1 <= current <= total
    ensures PrevDisabled(current) <==> ChangePage(current, total, PrevClick) == current
    ensures NextDisabled(current, total) <==> ChangePage(current, total, NextClick) == current
  {
  }

  /** With no products there are no page buttons and Next stays enabled on
      page 1, though clicking it does nothing. */
  lemma EmptyCatalogue()
    ensures |PageButtons(TotalPages(0))| == 0
    ensures !NextDisabled(1, TotalPages(0)) && PrevDisabled(1)
    ensures ChangePage(1, TotalPages(0), NextClick) == 1
  {
  }

  /* ---------------- The products shown ---------------- */

  /** A `slice` bound as JavaScript resolves it: a negative bound counts
      back from the end, and the result is clamped to 0..len. */
  function RelativeIndex(k: int, len: nat): (r: int)
    ensures 0 <= r <= len
    ensures 0 <= k ==> r == Min(k, len)
    ensures k < 0 ==> r == Max(len + k, 0)
  {
    if k < 0 then Max(len + k, 0) else Min(k, len)
  }

  /** `xs.slice(start, end)` with JavaScript's handling of negative and
      out-of-range bounds. */
  function JsSlice<T>(xs: seq<T>, start: int, end: int): (r: seq<T>)
    ensures |r| <= |xs|
    ensures var from, to := RelativeIndex(start, |xs|), RelativeIndex(end, |xs|);
            |r| == Max(0, to - from) && forall i :: 0 <= i < |r| ==> r[i] == xs[from + i]
    ensures 0 <= start && 0 <= end ==> |r| == Max(0, Min(end, |xs|) - Min(start, |xs|))
    ensures 0 <= start ==> forall i :: 0 <= i < |r| ==> start + i < |xs| && r[i] == xs[start + i]
    ensures 0 <= start && 0 <= end ==> |r| <= Max(0, end - start)
    ensures 0 <= start && |xs| <= start ==> r == []
  {
    var from := RelativeIndex(start, |xs|);
    var to := RelativeIndex(end, |xs|);
    if to <= from then [] else xs[from..to]
  }

  /** The cards of `page`. */
  function PageItems<T>(data: seq<T>, page: int): seq<T> {
    JsSlice(data, WindowStart(page), WindowEnd(page))
  }

  /** Every existing page shows between one and ten products. */
  lemma PageItemsCount<T>(data: seq<T>, page: int)
    requires 1 <= page <= TotalPages(|data|)
    ensures 1 <= |PageItems(data, page)| <= ProductsPerPage
  {
  }

  /** The cards of pages 1..k, in page order. */
  function PagesUpTo<T>(data: seq<T>, k: nat): seq<T> {
    if k == 0 then [] else PagesUpTo(data, k - 1) + PageItems(data, k)
  }

  lemma {:induction false} PagesUpToPrefix<T>(data: seq<T>, k: nat)
    ensures PagesUpTo(data, k) == data[..Min(k * ProductsPerPage, |data|)]
  {
    if k > 0 {
      PagesUpToPrefix(data, k - 1);
      var a, b := Min((k - 1) * ProductsPerPage, |data|), Min(k * ProductsPerPage, |data|);
      assert PageItems(data, k) == data[a..b];
      assert data[..a] + data[a..b] == data[..b];
    }
  }

  /** Paging through every page shows each product exactly once, in the
      original order. */
  lemma AllPagesShowEachProductOnce<T>(data: seq<T>)
    ensures PagesUpTo(data, TotalPages(|data|)) == data
  {
    PagesUpToPrefix(data, TotalPages(|data|));
    assert data[..|data|] == data;
  }
}

=== FILE: patterns.dfy ===
/**
  The regular expression `\S+@\S+\.\S+` that both form demos use for email
  addresses, written out as predicates over strings: anchored
  (`/^\S+@\S+\.\S+$/`, the validation form) and unanchored
  (`/\S+@\S+\.\S+/`, the step wizard), with `\S` meaning "not white space".
 */
module Patterns {
  import opened Common

  /** `s` splits as x "@" y "." z around the '@' at `at` and the '.' at
      `dot`, with x, y and z non-empty. */
  predicate EmailSplitAt(s: string, at: int, dot: int) {
    0 < at && at + 1 < dot && dot + 1 < |s| && s[at] == '@' && s[dot] == '.'
  }

  /** `/^\S+@\S+\.\S+$/.test(s)` */
  predicate MatchesEmail(s: string) {
    NoWhitespace(s) && exists at, dot | 0 <= at < |s| && 0 <= dot < |s| :: EmailSplitAt(s, at, dot)
  }

  /** `/\S+@\S+\.\S+/.test(s)`: some piece of `s` matches the anchored pattern. */
  predicate ContainsEmail(s: string) {
    exists lo, hi | 0 <= lo <= hi <= |s| :: MatchesEmail(s[lo..hi])
  }

  /** The regular-expression test, as a scan: the first '@' after position 0
      and the last '.' before the final character are the best candidates,
      so the pattern matches exactly when they are far enough apart. */
  method MatchEmail(s: string) returns (ok: bool)
    ensures ok <==> MatchesEmail(s)
  {
    var i := 0;
    while i < |s|
      invariant 0 <= i <= |s|
      invariant NoWhitespace(s[..i])
    {
      if IsWhitespace(s[i]) {
        assert !NoWhitespace(s);
        return false;
      }
      assert s[..i + 1] == s[..i] + [s[i]];
      i := i + 1;
    }
    assert s[..i] == s;
    if |s| < 5 {
      return false;
    }
    var at := 1;
    while at < |s| && s[at] != '@'
      invariant 1 <= at <= |s|
      invariant forall k :: 1 <= k < at ==> s[k] != '@'
    {
      at := at + 1;
    }
    var dot := |s| - 2;
    while dot >= 0 && s[dot] != '.'
      invariant -1 <= dot <= |s| - 2
      invariant forall k :: dot < k <= |s| - 2 ==> s[k] != '.'
    {
      dot := dot - 1;
    }
    ok := at < |s| && dot >= 0 && at + 2 <= dot;
    if ok {
      assert EmailSplitAt(s, at, dot);
    }
  }

  /** A whole-string match is also a match somewhere inside the string. */
  lemma MatchesImpliesContains(s: string)
    requires MatchesEmail(s)
    ensures ContainsEmail(s)
  {
    assert s[0..|s|] == s;
  }

  /** An unanchored match needs only one non-space character around each
      separator: the characters from just before the '@' to just after the
      '.' contain no white space. */
  ghost predicate ContainsSplitAt(s: string, at: int, dot: int) {
    1 <= at && at + 2 <= dot && dot + 2 <= |s| && s[at] == '@' && s[dot] == '.'
    && NoWhitespace(s[at - 1..dot + 2])
  }

  lemma ContainsEmailIff(s: string)
    ensures ContainsEmail(s) <==> exists at, dot :: ContainsSplitAt(s, at, dot)
  {
    if ContainsEmail(s) {
      var lo, hi :| 0 <= lo <= hi <= |s| && MatchesEmail(s[lo..hi]);
      var t := s[lo..hi];
      var a, d :| 0 <= a < |t| && 0 <= d < |t| && EmailSplitAt(t, a, d);
      var piece := s[lo + a - 1..lo + d + 2];
      forall k | 0 <= k < |piece|
        ensures !IsWhitespace(piece[k])
      {
        assert piece[k] == t[a - 1 + k];
      }
      assert ContainsSplitAt(s, lo + a, lo + d);
    }
    if exists at, dot :: ContainsSplitAt(s, at, dot) {
      var at, dot :| ContainsSplitAt(s, at, dot);
      var t := s[at - 1..dot + 2];
      assert EmailSplitAt(t, 1, dot - at + 1);
      assert MatchesEmail(t);
    }
  }

  /** The unanchored test accepts text around an address; the anchored one
      does not. */
  lemma SurroundingTextAccepted()
    ensures ContainsEmail("mail riya@gmail.com now")
    ensures !MatchesEmail("mail riya@gmail.com now")
  {
    var s := "mail riya@gmail.com now";
    assert IsWhitespace(s[4]);
    assert ContainsSplitAt(s, 9, 15) by {
      assert s[8..17] == "a@gmail.c";
    }
    ContainsEmailIff(s);
  }
}

=== FILE: search_bar.dfy ===
/**
  The search bar: the suggestion list's visibility, the keyboard highlight
  index over the suggestions, and what typing, focusing, submitting,
  selecting and clicking away do to the provider's state.
 */
module SearchBar {
  import opened Common
  import opened SearchContext

  /** The provider's state plus the bar's own `showSuggestions`,
      `isFocused` and `selectedSuggestionIndex`. */
  datatype Bar = Bar(ctx: SearchState, show: bool, focused: bool, index: int)

  function InitBar(saved: seq<string>): (b: Bar)
    ensures b.ctx == Init(saved) && !b.show && !b.focused && b.index == -1
  {
    Bar(Init(saved), false, false, -1)
  }

  /** The dropdown is rendered when it is switched on and the query is not blank. */
  predicate ListVisible(b: Bar) {
    b.show && HasText(b.ctx.query)
  }

  /** The render tests `searchQuery.trim()` only while the list is switched
      on; this says that test never meets an undefined query. */
  predicate QueryDefinedWhileShown(b: Bar) {
    b.show ==> b.ctx.query.Text?
  }

  /** `handleSelectSuggestion`'s own state changes: the argument becomes the
      query, whatever it is. The search it launches reads the query from
      before this update and is not part of the model. */
  function Select(b: Bar, q: Query): (r: Bar)
    ensures r.ctx == b.ctx.(query := q) && !r.show && r.index == -1 && r.focused == b.focused
  {
    b.(ctx := SetQuery(b.ctx, q), show := false, index := -1)
  }

  /* ---------------- Enter ---------------- */

  /** What Enter hands to `handleSelectSuggestion`, as the code indexes the
      list: nothing for a negative index, `undefined` past the end. */
  datatype EnterTargetWritten = NoTarget | Suggestion(s: string) | PastEnd

  function EnterTargetAsWritten(b: Bar): (r: EnterTargetWritten)
    ensures r.NoTarget? <==> b.index < 0
    ensures r.PastEnd? <==> b.index >= |b.ctx.suggestions|
    ensures r.Suggestion? ==> r.s == b.ctx.suggestions[b.index]
  {
    if b.index < 0 then NoTarget
    else if b.index < |b.ctx.suggestions| then Suggestion(b.ctx.suggestions[b.index])
    else PastEnd
  }

  /** Enter selects the highlighted suggestion only when the index is on the
      current list. */
  function EnterTarget(b: Bar): (r: Option<string>)
    ensures r.Some? <==> 0 <= b.index < |b.ctx.suggestions|
    ensures r.Some? ==> r.value in b.ctx.suggestions && r.value == b.ctx.suggestions[b.index]
  {
    if 0 <= b.index < |b.ctx.suggestions| then Some(b.ctx.suggestions[b.index]) else None
  }

  /** The two agree whenever the code's indexing is defined. */
  lemma EnterTargetAgrees(b: Bar)
    requires b.index < |b.ctx.suggestions|
    ensures EnterTarget(b).None? <==> EnterTargetAsWritten(b).NoTarget?
    ensures EnterTarget(b).Some? ==> EnterTargetAsWritten(b) == Suggestion(EnterTarget(b).value)
  {
  }

  /* ---------------- The document keydown handler ---------------- */

  datatype Key = Escape | ArrowDown | ArrowUp | Enter | OtherKey

  /** The keydown handler as written: ignored while the list is switched
      off; Enter with a non-negative index passes `suggestions[index]` on,
      which is `undefined` once the index is past the end of the list. */
  function KeyDown(b: Bar, k: Key): (r: Bar)
    ensures !b.show ==> r == b
    ensures b.show && k.Escape? ==> r == b.(show := false, index := -1)
    ensures b.show && k.ArrowDown? && |b.ctx.suggestions| > 0 ==>
              r == b.(index := if b.index < |b.ctx.suggestions| - 1 then b.index + 1 else b.index)
    ensures b.show && k.ArrowUp? && |b.ctx.suggestions| > 0 ==>
              r == b.(index := if b.index > 0 then b.index - 1 else -1)
    ensures b.show && (k.ArrowDown? || k.ArrowUp?) && |b.ctx.suggestions| == 0 ==> r == b
    ensures b.show && k.Enter? && 0 <= b.index < |b.ctx.suggestions| ==>
              r == Select(b, Text(b.ctx.suggestions[b.index]))
    ensures b.show && k.Enter? && b.index >= |b.ctx.suggestions| ==>
              r == Select(b, UndefinedQuery)
    ensures k.Enter? && b.index < 0 ==> r == b
    ensures k.OtherKey? ==> r == b
  {
    var n := |b.ctx.suggestions|;
    if !b.show then b
    else match k
      case Escape => b.(show := false, index := -1)
      case ArrowDown => if n > 0 then b.(index := if b.index < n - 1 then b.index + 1 else b.index) else b
      case ArrowUp => if n > 0 then b.(index := if b.index > 0 then b.index - 1 else -1) else b
      case Enter =>
        (match EnterTargetAsWritten(b)
         case NoTarget => b
         case Suggestion(s) => Select(b, Text(s))
         case PastEnd => Select(b, UndefinedQuery))
      case OtherKey => b
  }

  /** The handler as intended: Enter selects only a suggestion that is on
      the current list, so it never stores an undefined query. */
  function KeyDownIntended(b: Bar, k: Key): (r: Bar)
    ensures !k.Enter? ==> r == KeyDown(b, k)
    ensures b.show && k.Enter? && EnterTarget(b).Some? ==> r == Select(b, Text(EnterTarget(b).value))
    ensures k.Enter? && EnterTarget(b).None? ==> r == b
    ensures b.ctx.query.Text? ==> r.ctx.query.Text?
  {
    if !k.Enter? || !b.show then KeyDown(b, k)
    else match EnterTarget(b)
      case Some(s) => Select(b, Text(s))
      case None => b
  }

  /** The two handlers differ exactly on Enter with the index past the end. */
  lemma KeyDownIntendedAgrees(b: Bar, k: Key)
    ensures !(b.show && k.Enter? && b.index >= |b.ctx.suggestions|) ==> KeyDownIntended(b, k) == KeyDown(b, k)
    ensures b.show && k.Enter? && b.index >= |b.ctx.suggestions| ==> KeyDownIntended(b, k) != KeyDown(b, k)
  {
  }

  /** The highlight is on the list or at -1. */
  predicate IndexInRange(b: Bar) {
    -1 <= b.index < |b.ctx.suggestions|
  }

  /** The arrow keys never move an in-range index out of range. */
  lemma ArrowsKeepIndexInRange(b: Bar, k: Key)
    requires IndexInRange(b) && (k.ArrowDown? || k.ArrowUp?)
    ensures IndexInRange(KeyDown(b, k))
  {
  }

  /** Going down stops on the last suggestion. */
  lemma {:induction false} ArrowDownStopsAtLast(b: Bar, presses: nat)
    requires b.show && IndexInRange(b) && |b.ctx.suggestions| > 0
    ensures var r := PressDown(b, presses);
            r.index == Min(b.index + presses, |b.ctx.suggestions| - 1) && r.ctx == b.ctx && r.show
  {
    if presses > 0 {
      ArrowDownStopsAtLast(b, presses - 1);
    }
  }

  function PressDown(b: Bar, presses: nat): Bar {
    if presses == 0 then b else KeyDown(PressDown(b, presses - 1), ArrowDown)
  }

  /* ---------------- The bar's events ---------------- */

  datatype Event =
    | Type(value: string, fetched: SuggestionFetch)
    | Focus
    | Submit(resp: SearchResponse)
    | Pick(s: string)
    | RemoveClick(s: string)
    | ClickOutside
    | ClearClick
    | KeyPress(k: Key)

  /** One user action on the bar. */
  function Step(b: Bar, e: Event): (r: Bar)
    ensures e.Type? ==> r.ctx.query == Text(e.value) && (r.show <==> !IsBlank(e.value))
    ensures e.Type? && !IsBlank(e.value) ==> r.ctx == GetSuggestions(b.ctx.(query := Text(e.value)), e.value, e.fetched)
    ensures e.Type? && IsBlank(e.value) ==> r.ctx == b.ctx.(query := Text(e.value))
    ensures e.Type? ==> r.index == b.index && r.focused == b.focused
    ensures e.Focus? ==> r.focused && r.ctx == b.ctx && (r.show <==> b.show || HasText(b.ctx.query))
    ensures e.Focus? ==> r.index == b.index
    ensures e.Submit? && !HasText(b.ctx.query) ==> r == b
    ensures e.Submit? && HasText(b.ctx.query) ==>
              r.ctx == PerformSearch(b.ctx, e.resp) && r.index == -1 && !r.focused && !r.show
    ensures e.Pick? ==> r == Select(b, Text(e.s))
    ensures e.RemoveClick? ==> r == b.(ctx := RemoveSuggestion(b.ctx, e.s))
    ensures e.ClickOutside? ==> r == b.(show := false, focused := false)
    ensures e.ClearClick? ==> r.ctx == ResetSearch(b.ctx) && r.focused && r.index == b.index
    ensures e.ClearClick? ==> (r.show <==> b.show || HasText(b.ctx.query))
    ensures e.KeyPress? ==> r == KeyDown(b, e.k)
    ensures b.ctx.excluded <= r.ctx.excluded
    ensures Consistent(b.ctx) ==> Consistent(r.ctx)
    ensures QueryDefinedWhileShown(b) ==> QueryDefinedWhileShown(r)
  {
    match e
    case Type(v, f) =>
      var ctx := SetQuery(b.ctx, Text(v));
      if !IsBlank(v) then b.(ctx := Apply(ctx, Suggest(v, f)), show := true)
      else b.(ctx := ctx, show := false)
    case Focus => b.(focused := true, show := if HasText(b.ctx.query) then true else b.show)
    case Submit(resp) =>
      if HasText(b.ctx.query) then
        b.(ctx := PerformSearch(b.ctx, resp), index := -1, focused := false, show := false)
      else b
    case Pick(s) => Select(b, Text(s))
    case RemoveClick(s) => b.(ctx := Apply(b.ctx, Remove(s)))
    case ClickOutside => b.(show := false, focused := false)
    case ClearClick =>
      // `handleClear` refocuses the input, which runs the focus handler with
      // the query from before the reset.
      var focused := b.(focused := true, show := if HasText(b.ctx.query) then true else b.show);
      focused.(ctx := ResetSearch(b.ctx))
    case KeyPress(k) => KeyDown(b, k)
  }

  /** Clearing is the focus handler, run with the query from before the
      clear, followed by the provider's reset. So after clearing a query
      with text the list is switched on, though the empty query keeps it
      from rendering, and Escape then acts on it. */
  lemma ClearRunsStaleFocus(b: Bar)
    ensures Step(b, ClearClick) == Step(b, Focus).(ctx := ResetSearch(b.ctx))
    ensures HasText(b.ctx.query) ==> Step(b, ClearClick).show && !ListVisible(Step(b, ClearClick))
    ensures HasText(b.ctx.query) ==> Step(Step(b, ClearClick), KeyPress(Escape)).index == -1
  {
  }

  /** When the dropdown shows: typing shows it exactly for a non-blank
      value, focusing shows it for a non-blank query, and Escape, a
      non-blank submit, a pick and a click away all hide it. */
  lemma VisibilityRules(b: Bar, e: Event)
    ensures e.Type? ==> (ListVisible(Step(b, e)) <==> !IsBlank(e.value))
    ensures e.Focus? && HasText(b.ctx.query) ==> ListVisible(Step(b, e))
    ensures e.Focus? && !HasText(b.ctx.query) ==> !ListVisible(Step(b, e))
    ensures e == KeyPress(Escape) || e.Pick? || e.ClickOutside? ==> !ListVisible(Step(b, e))
    ensures e.Submit? && HasText(b.ctx.query) ==> !ListVisible(Step(b, e))
    ensures e.ClearClick? ==> !ListVisible(Step(b, e))
  {
  }

  function Run(b: Bar, es: seq<Event>): Bar
    decreases |es|
  {
    if es == [] then b else Run(Step(b, es[0]), es[1..])
  }

  /** Through any run of events, no excluded name is ever suggested. */
  lemma {:induction false} RunKeepsConsistent(b: Bar, es: seq<Event>)
    requires Consistent(b.ctx)
    ensures Consistent(Run(b, es).ctx)
    ensures b.ctx.excluded <= Run(b, es).ctx.excluded
    decreases |es|
  {
    if es != [] {
      RunKeepsConsistent(Step(b, es[0]), es[1..]);
    }
  }

  /** The list is never switched on over an undefined query: the bar starts
      with an empty query, and every event keeps this. */
  lemma {:induction false} RunKeepsQueryDefined(b: Bar, es: seq<Event>)
    requires QueryDefinedWhileShown(b)
    ensures QueryDefinedWhileShown(Run(b, es))
    decreases |es|
  {
    if es != [] {
      RunKeepsQueryDefined(Step(b, es[0]), es[1..]);
    }
  }

  /** With the intended handler, Enter either does nothing or picks a name
      that is on the current list and has not been excluded. */
  lemma EnterPicksListedName(b: Bar)
    requires Consistent(b.ctx) && b.show
    ensures var r := KeyDownIntended(b, Enter);
            r == b || (r.ctx.query.Text? && r.ctx.query.text in b.ctx.suggestions
                       && r.ctx.query.text !in b.ctx.excluded)
  {
  }

  lemma RunFour(b: Bar, e1: Event, e2: Event, e3: Event, e4: Event)
    ensures Run(b, [e1, e2, e3, e4]) == Step(Step(Step(Step(b, e1), e2), e3), e4)
  {
    var b3 := Step(Step(Step(b, e1), e2), e3);
    assert Run(b3, [e4]) == Step(b3, e4) by { assert [e4][1..] == []; }
    assert Run(Step(Step(b, e1), e2), [e3, e4]) == Run(b3, [e4]) by { assert [e3, e4][1..] == [e4]; }
    assert Run(Step(b, e1), [e2, e3, e4]) == Run(Step(Step(b, e1), e2), [e3, e4]) by {
      assert [e2, e3, e4][1..] == [e3, e4];
    }
    assert [e1, e2, e3, e4][1..] == [e2, e3, e4];
  }

  /** The bar after typing "pasta" with a lookup that returns "a", "b". */
  const Typed := Bar(SearchState(Text("pasta"), [], ["a", "b"], [], None), true, false, -1)

  lemma TypedStep()
    ensures Step(InitBar([]), Type("pasta", Fetched(["a", "b"]))) == Typed
  {
    var p := "pasta";
    assert !IsBlank(p) by { assert !IsWhitespace(p[0]); }
    var none: seq<string> := [];
    assert FilterOut(["a", "b"], none) == ["a", "b"] by {
      assert ["a", "b"][1..] == ["b"];
      assert FilterOut(["b"], none) == ["b"] by {
        assert ["b"][1..] == none;
      }
    }
  }

  lemma RemoveSecondStep()
    ensures Step(Typed.(index := 1), RemoveClick("b"))
              == Bar(SearchState(Text("pasta"), [], ["a"], ["b"], None), true, false, 1)
  {
    var none: seq<string> := [];
    assert ["a", "b"][1..] == ["b"];
    assert RemoveAll(["b"], "b") == [] by { assert ["b"][1..] == []; }
    assert none + ["b"] == ["b"];
  }

  /** The highlight survives the list shrinking: from the initial bar, type a
      query that fetches two names, go down twice and remove the second name.
      The index is then past the end, and Enter stores `undefined` as the
      query and switches the list off. From there the search form does
      nothing and focusing does not bring the list back, until the user
      types again. The intended handler leaves the bar alone instead. */
  lemma StaleIndexSelectsUndefined(resp: SearchResponse)
    ensures var b := Run(InitBar([]), [Type("pasta", Fetched(["a", "b"])), KeyPress(ArrowDown),
                                        KeyPress(ArrowDown), RemoveClick("b")]);
            var after := KeyDown(b, Enter);
            b.show && b.index == 1 && b.ctx.suggestions == ["a"]
            && EnterTargetAsWritten(b) == PastEnd
            && after.ctx.query == UndefinedQuery && !after.show && after.index == -1
            && Step(after, Submit(resp)) == after
            && !Step(after, Focus).show
            && KeyDownIntended(b, Enter) == b
  {
    RunFour(InitBar([]), Type("pasta", Fetched(["a", "b"])), KeyPress(ArrowDown),
            KeyPress(ArrowDown), RemoveClick("b"));
    TypedStep();
    assert Step(Typed, KeyPress(ArrowDown)) == Typed.(index := 0);
    assert Step(Typed.(index := 0), KeyPress(ArrowDown)) == Typed.(index := 1);
    RemoveSecondStep();
  }
}

=== FILE: search_context.dfy ===
/**
  The recipe search provider's state: the query, the results, the
  suggestion list with its persistent exclusion list, and the error line.
  The network answers are parameters of the operations that wait for them.
 */
module SearchContext {
  import opened Common

  datatype Recipe = Recipe(id: int, name: string)

  /** `searchQuery`. Its declared type is a string, but a caller can store
      `undefined` in it; every `searchQuery.trim()` then throws. */
  datatype Query = Text(text: string) | UndefinedQuery

  /** `searchQuery.trim()` is truthy. On an undefined query the call throws
      before anything else happens, which leaves the state as a falsy
      result would. */
  predicate HasText(q: Query) {
    q.Text? && !IsBlank(q.text)
  }

  datatype SearchState = SearchState(
    query: Query,
    results: seq<Recipe>,
    suggestions: seq<string>,
    excluded: seq<string>,
    error: Option<string>)

  /** The provider as mounted: everything empty except the exclusions
      read back from storage. */
  function Init(saved: seq<string>): (st: SearchState)
    ensures st.query == Text("") && st.results == [] && st.suggestions == []
    ensures st.excluded == saved && st.error.None?
  {
    SearchState(Text(""), [], [], saved, None)
  }

  const NoRecipesFound := "No recipes found."
  const SearchFailedMessage := "Failed to search recipes. Please try again."

  /** The suggestion names the lookup returned, or its failure. */
  datatype SuggestionFetch = Fetched(names: seq<string>) | FetchFailed

  /** The search endpoint's answer: its `recipes` field (possibly missing),
      or a failed request. */
  datatype SearchResponse = Recipes(recipes: Option<seq<Recipe>>) | SearchFailed

  /** `setSearchQuery` */
  function SetQuery(st: SearchState, q: Query): SearchState {
    st.(query := q)
  }

  /** `getSuggestions(query)`: a blank query empties the list without a
      lookup; otherwise the fetched names minus the excluded ones, in the
      fetched order, or nothing when the lookup failed. */
  function GetSuggestions(st: SearchState, query: string, fetched: SuggestionFetch): (r: SearchState)
    ensures IsBlank(query) || fetched.FetchFailed? ==> r.suggestions == []
    ensures !IsBlank(query) && fetched.Fetched? ==> r.suggestions == FilterOut(fetched.names, st.excluded)
    ensures forall i :: 0 <= i < |r.suggestions| ==> r.suggestions[i] !in st.excluded
    ensures r == st.(suggestions := r.suggestions)
  {
    if IsBlank(query) then st.(suggestions := [])
    else match fetched
      case Fetched(names) => st.(suggestions := FilterOut(names, st.excluded))
      case FetchFailed => st.(suggestions := [])
  }

  /** `performSearch`: nothing for a blank query (and nothing for an
      undefined one, where the test throws); otherwise the error is
      cleared and the results and error are set from the answer. */
  function PerformSearch(st: SearchState, resp: SearchResponse): (r: SearchState)
    ensures !HasText(st.query) ==> r == st
    ensures HasText(st.query) && resp.Recipes? && resp.recipes.Some? && |resp.recipes.value| > 0 ==>
              r.results == resp.recipes.value && r.error.None?
    ensures HasText(st.query) && resp.Recipes? && (resp.recipes.None? || resp.recipes.value == []) ==>
              r.results == [] && r.error == Some(NoRecipesFound)
    ensures HasText(st.query) && resp.SearchFailed? ==>
              r.results == [] && r.error == Some(SearchFailedMessage)
    ensures r.query == st.query && r.suggestions == st.suggestions && r.excluded == st.excluded
  {
    if !HasText(st.query) then st
    else match resp
      case Recipes(Some(recipes)) =>
        if |recipes| > 0 then st.(results := recipes, error := None)
        else st.(results := [], error := Some(NoRecipesFound))
      case Recipes(None) => st.(results := [], error := Some(NoRecipesFound))
      case SearchFailed => st.(results := [], error := Some(SearchFailedMessage))
  }

  /** `clearSearch`: query, results and suggestions emptied, error cleared. */
  function ClearSearch(st: SearchState): (r: SearchState)
    ensures r.query == Text("") && r.results == [] && r.suggestions == [] && r.error.None?
    ensures r.excluded == st.excluded
  {
    st.(query := Text(""), results := [], suggestions := [], error := None)
  }

  /** `resetSearch`: as `clearSearch`, but the error line stays. */
  function ResetSearch(st: SearchState): (r: SearchState)
    ensures r.query == Text("") && r.results == [] && r.suggestions == []
    ensures r.error == st.error && r.excluded == st.excluded
  {
    st.(query := Text(""), results := [], suggestions := [])
  }

  /** `removeSuggestion(s)`: `s` joins the exclusions and every copy of it
      leaves the list; the others keep their order. */
  function RemoveSuggestion(st: SearchState, s: string): (r: SearchState)
    ensures r.excluded == st.excluded + [s]
    ensures r.suggestions == RemoveAll(st.suggestions, s)
    ensures s !in r.suggestions
    ensures multiset(r.suggestions) == multiset(st.suggestions)[s := 0]
    ensures r.query == st.query && r.results == st.results && r.error == st.error
  {
    st.(excluded := st.excluded + [s], suggestions := RemoveAll(st.suggestions, s))
  }

  /** Clearing and resetting differ only in the error line. */
  lemma ClearIsResetWithoutError(st: SearchState)
    ensures ClearSearch(st) == ResetSearch(st).(error := None)
  {
  }

  /** Removing a suggestion from a freshly fetched list gives the list a new
      lookup of the same names would give. */
  lemma RemoveThenRefetchAgrees(st: SearchState, query: string, names: seq<string>, s: string)
    requires !IsBlank(query)
    ensures var fetched := GetSuggestions(st, query, Fetched(names));
            RemoveSuggestion(fetched, s).suggestions
              == GetSuggestions(RemoveSuggestion(fetched, s), query, Fetched(names)).suggestions
  {
    FilterOutExtend(names, st.excluded, s);
  }

  /* ---------------- The exclusion invariant ---------------- */

  /** No excluded name is on the suggestion list. */
  predicate Consistent(st: SearchState) {
    forall i :: 0 <= i < |st.suggestions| ==> st.suggestions[i] !in st.excluded
  }

  datatype Operation =
    | SetTo(q: Query)
    | Suggest(query: string, fetched: SuggestionFetch)
    | Search(resp: SearchResponse)
    | Clear
    | Reset
    | Remove(s: string)

  function Apply(st: SearchState, op: Operation): (r: SearchState)
    ensures st.excluded <= r.excluded
    ensures Consistent(st) ==> Consistent(r)
  {
    match op
    case SetTo(q) => SetQuery(st, q)
    case Suggest(q, f) => GetSuggestions(st, q, f)
    case Search(resp) => PerformSearch(st, resp)
    case Clear => ClearSearch(st)
    case Reset => ResetSearch(st)
    case Remove(s) =>
      var r := RemoveSuggestion(st, s);
      assert forall i :: 0 <= i < |r.suggestions| ==> r.suggestions[i] in st.suggestions by {
        assert forall i :: 0 <= i < |r.suggestions| ==> r.suggestions[i] in multiset(r.suggestions);
      }
      r
  }

  function ApplyAll(st: SearchState, ops: seq<Operation>): SearchState
    decreases |ops|
  {
    if ops == [] then st else ApplyAll(Apply(st, ops[0]), ops[1..])
  }

  /** The exclusion list only grows, and the invariant holds throughout. */
  lemma {:induction false} ApplyAllKeepsExclusions(st: SearchState, ops: seq<Operation>)
    requires Consistent(st)
    ensures st.excluded <= ApplyAll(st, ops).excluded
    ensures Consistent(ApplyAll(st, ops))
    decreases |ops|
  {
    if ops != [] {
      ApplyAllKeepsExclusions(Apply(st, ops[0]), ops[1..]);
    }
  }

  /** Once removed, a suggestion never comes back, whatever happens next. */
  lemma RemovedNeverReturns(st: SearchState, s: string, later: seq<Operation>)
    requires Consistent(st)
    ensures s !in ApplyAll(RemoveSuggestion(st, s), later).suggestions
  {
    var st1 := RemoveSuggestion(st, s);
    assert Consistent(st1) by { assert Apply(st, Remove(s)) == st1; }
    ApplyAllKeepsExclusions(st1, later);
    var fin := ApplyAll(st1, later);
    assert s == st1.excluded[|st.excluded|];
    assert s in fin.excluded;
  }

  /** The provider starts consistent whatever was stored. */
  lemma InitConsistent(saved: seq<string>)
    ensures Consistent(Init(saved))
  {
  }
}

=== FILE: stars.dfy ===
/**
  The star rating of a product card: full stars for the whole part of the
  rating, one half star when the fraction is at least one half, and empty
  stars to make five. The rating is a real number; for a non-negative
  double the subtraction `rating - floor(rating)` is exact, so the real
  model decides the half star as the double arithmetic does.
 */
module StarRating {

  datatype Stars = Stars(full: int, half: bool, empty: int)

  const StarCount := 5

  function StarSplit(rating: real): (r: Stars)
    ensures r.full as real <= rating < r.full as real + 1.0
    ensures r.half <==> rating - r.full as real >= 0.5
    ensures r.full + (if r.half then 1 else 0) + r.empty == StarCount
  {
    var full := rating.Floor;
    var half := rating - full as real >= 0.5;
    Stars(full, half, StarCount - full - (if half then 1 else 0))
  }

  /** `Array(n)` needs a non-negative length: both star counts are valid
      exactly for ratings in [0, 5.5). */
  lemma CountsValidIff(rating: real)
    ensures var s := StarSplit(rating);
            s.full >= 0 && s.empty >= 0 <==> 0.0 <= rating < 5.5
  {
  }

  /** A whole-number rating shows that many full stars and no half star. */
  lemma WholeRating(n: int)
    ensures StarSplit(n as real) == Stars(n, false, StarCount - n)
  {
  }
}

=== FILE: stepper.dfy ===
/**
  The three-step form wizard (Profile, Interest, Setting): a validator per
  tab, the tab index that moves only when the current tab validates, and the
  interest checkboxes' add/remove rule.
 */
module StepperForm {
  import opened Common
  import opened Patterns

  /** Every field may be undefined. `age` is the number typed into the age
      input, `None` when nothing usable was typed. */
  datatype Data = Data(name: Option<string>, age: Option<real>, email: Option<string>,
                       interests: Option<seq<string>>, theme: Option<string>)

  const InitialData := Data(Some("Riya"), Some(20.0), Some("riya@gmail.com"),
                            Some(["reading", "coding", "traveling"]), Some("dark"))

  /** One optional message per field; `None` is an absent key. */
  datatype Errors = Errors(name: Option<string>, age: Option<string>, email: Option<string>,
                           interests: Option<string>, theme: Option<string>)
  {
    /** `Object.keys(errors).length === 0` */
    predicate IsEmpty() {
      name.None? && age.None? && email.None? && interests.None? && theme.None?
    }
  }

  const NoErrors := Errors(None, None, None, None, None)

  const NameRequired := "Name is required"
  const AgeRequired := "Age is required"
  const EmailRequired := "Email is required"
  const EmailInvalid := "Email is invalid"
  const InterestsRequired := "At least one interest is required"
  const ThemeRequired := "Theme is required"

  /** JavaScript truthiness of an optional string: undefined and "" are falsy. */
  predicate Present(s: Option<string>) {
    s.Some? && s.value != ""
  }

  /** The Profile tab's `validate`. Its falsy tests are subsumed by the
      length and range tests, so an error is exactly a short name, an age
      under 18, or an email that is empty or holds no address. */
  function ProfileErrors(d: Data): (r: Errors)
    ensures r.name.Some? <==> d.name.None? || Utf16Length(Trim(d.name.value)) < 2
    ensures r.age.Some? <==> d.age.None? || d.age.value < 18.0
    ensures r.email.Some? <==> !Present(d.email) || !ContainsEmail(d.email.value)
    ensures r.email.Some? ==> r.email.value == if Present(d.email) then EmailInvalid else EmailRequired
    ensures r.name.Some? ==> r.name.value == NameRequired
    ensures r.age.Some? ==> r.age.value == AgeRequired
    ensures r.interests.None? && r.theme.None?
  {
    Errors(
      if !Present(d.name) || Utf16Length(Trim(d.name.value)) < 2 then Some(NameRequired) else None,
      if d.age.None? || d.age.value == 0.0 || d.age.value < 18.0 then Some(AgeRequired) else None,
      if !Present(d.email) then Some(EmailRequired)
      else if !ContainsEmail(d.email.value) then Some(EmailInvalid)
      else None,
      None,
      None)
  }

  /** The Interest tab's `validate`. */
  function InterestErrors(d: Data): (r: Errors)
    ensures r.IsEmpty() <==> d.interests.Some? && |d.interests.value| > 0
    ensures r.interests.Some? ==> r.interests.value == InterestsRequired
    ensures r.name.None? && r.age.None? && r.email.None? && r.theme.None?
  {
    if d.interests.None? || |d.interests.value| == 0 then NoErrors.(interests := Some(InterestsRequired))
    else NoErrors
  }

  /** The Setting tab's `validate`. */
  function SettingErrors(d: Data): (r: Errors)
    ensures r.IsEmpty() <==> Present(d.theme)
    ensures r.theme.Some? ==> r.theme.value == ThemeRequired
    ensures r.name.None? && r.age.None? && r.email.None? && r.interests.None?
  {
    if !Present(d.theme) then NoErrors.(theme := Some(ThemeRequired)) else NoErrors
  }

  const TabCount := 3

  /** The errors of tab `tab` (0 Profile, 1 Interest, 2 Setting). */
  function TabErrors(tab: int, d: Data): Errors
    requires 0 <= tab < TabCount
  {
    if tab == 0 then ProfileErrors(d) else if tab == 1 then InterestErrors(d) else SettingErrors(d)
  }

  /** The length test counts UTF-16 code units: a single character outside
      the Basic Multilingual Plane is a long enough name, while a single
      ordinary letter is not. */
  lemma NameLengthInCodeUnits(d: Data)
    ensures ProfileErrors(d.(name := Some("\U{1F600}"))).name.None?
    ensures ProfileErrors(d.(name := Some("R"))).name == Some(NameRequired)
  {
    OneCharacterName("\U{1F600}");
    OneCharacterName("R");
  }

  lemma OneCharacterName(name: string)
    requires |name| == 1 && !IsWhitespace(name[0])
    ensures Trim(name) == name
    ensures Utf16Length(name) == if name[0] as int <= 0xFFFF then 1 else 2
  {
    assert TrimStart(name) == name && TrimEnd(name) == name;
    assert name[1..] == [];
  }

  /** The starting data passes every tab. */
  lemma InitialDataValid()
    ensures ProfileErrors(InitialData).IsEmpty()
    ensures InterestErrors(InitialData).IsEmpty()
    ensures SettingErrors(InitialData).IsEmpty()
  {
    var e := "riya@gmail.com";
    assert ContainsEmail(e) by {
      assert e[0..|e|] == e;
      assert EmailSplitAt(e, 4, 10);
      forall i | 0 <= i < |e|
        ensures !IsWhitespace(e[i])
      {
        assert e[i] as int > 0x20 && e[i] as int < 0x7F;
      }
    }
    assert !IsWhitespace("Riya"[0]) && !IsWhitespace("Riya"[3]);
  }

  datatype Wizard = Wizard(active: int, data: Data, errors: Errors)

  const InitialWizard := Wizard(0, InitialData, NoErrors)

  /** The navigation buttons rendered for the current tab. */
  predicate PrevOffered(w: Wizard) { w.active > 0 }
  predicate NextOffered(w: Wizard) { w.active < TabCount - 1 }
  predicate SubmitOffered(w: Wizard) { w.active == TabCount - 1 }

  datatype Event =
    | Prev
    | Next
    | Header(index: int)
    | Submit
    | SetName(name: string)
    | SetAge(age: Option<real>)
    | SetEmail(email: string)
    | SetTheme(theme: string)
    | ToggleInterest(interest: string, checked: bool)

  predicate IsNavigation(e: Event) {
    e.Prev? || e.Next? || e.Header? || e.Submit?
  }

  /** The Interest tab's `handleChange` on the interests list. */
  function ToggleInterests(interests: Option<seq<string>>, name: string, checked: bool): (r: Option<seq<string>>)
    ensures checked ==> r.Some? && |r.value| == |interests.GetOr([])| + 1
    ensures checked ==> r.value[..|r.value| - 1] == interests.GetOr([]) && r.value[|r.value| - 1] == name
    ensures !checked ==> (r.None? <==> interests.None?)
    ensures !checked && r.Some? ==> r.value == RemoveAll(interests.value, name)
  {
    if checked then
      var r := interests.GetOr([]) + [name];
      assert r[..|r| - 1] == interests.GetOr([]);
      Some(r)
    else if interests.None? then None
    else Some(RemoveAll(interests.value, name))
  }

  /** One user action. A navigation click validates the current tab,
      replacing the whole error set, and moves only if that tab is valid. A
      button that is not rendered, or a header that does not exist, cannot
      be clicked. */
  function Step(w: Wizard, e: Event): (r: Wizard)
    requires 0 <= w.active < TabCount
    ensures 0 <= r.active < TabCount
    ensures r.active != w.active ==> TabErrors(w.active, w.data).IsEmpty()
    ensures r.active != w.active && e.Prev? ==> r.active == w.active - 1
    ensures r.active != w.active && e.Next? ==> r.active == w.active + 1
    ensures r.active != w.active ==> e.Prev? || e.Next? || (e.Header? && r.active == e.index)
    ensures e.Prev? && PrevOffered(w) && TabErrors(w.active, w.data).IsEmpty() ==> r.active == w.active - 1
    ensures e.Next? && NextOffered(w) && TabErrors(w.active, w.data).IsEmpty() ==> r.active == w.active + 1
    ensures e.Header? && 0 <= e.index < TabCount && TabErrors(w.active, w.data).IsEmpty() ==> r.active == e.index
    ensures IsNavigation(e) ==> r.data == w.data
    ensures IsNavigation(e) && r != w ==> r.errors == TabErrors(w.active, w.data)
    ensures (e.Prev? && PrevOffered(w)) || (e.Next? && NextOffered(w))
            || (e.Header? && 0 <= e.index < TabCount) || (e.Submit? && SubmitOffered(w))
            ==> r.errors == TabErrors(w.active, w.data)
    ensures (e.Prev? && !PrevOffered(w)) || (e.Next? && !NextOffered(w))
            || (e.Header? && !(0 <= e.index < TabCount)) || (e.Submit? && !SubmitOffered(w))
            ==> r == w
    ensures !IsNavigation(e) ==> r.active == w.active && r.errors == w.errors
    ensures e.ToggleInterest? ==> r.data == w.data.(interests := ToggleInterests(w.data.interests, e.interest, e.checked))
    ensures e.SetName? ==> r.data == w.data.(name := Some(e.name))
    ensures e.SetAge? ==> r.data == w.data.(age := e.age)
    ensures e.SetEmail? ==> r.data == w.data.(email := Some(e.email))
    ensures e.SetTheme? ==> r.data == w.data.(theme := Some(e.theme))
  {
    var errors := TabErrors(w.active, w.data);
    var valid := errors.IsEmpty();
    match e
    case Prev =>
      if !PrevOffered(w) then w
      else w.(active := if valid then w.active - 1 else w.active, errors := errors)
    case Next =>
      if !NextOffered(w) then w
      else w.(active := if valid then w.active + 1 else w.active, errors := errors)
    case Header(i) =>
      if !(0 <= i < TabCount) then w
      else w.(active := if valid then i else w.active, errors := errors)
    case Submit =>
      if !SubmitOffered(w) then w else w.(errors := errors)
    case SetName(v) => w.(data := w.data.(name := Some(v)))
    case SetAge(a) => w.(data := w.data.(age := a))
    case SetEmail(v) => w.(data := w.data.(email := Some(v)))
    case SetTheme(v) => w.(data := w.data.(theme := Some(v)))
    case ToggleInterest(n, checked) => w.(data := w.data.(interests := ToggleInterests(w.data.interests, n, checked)))
  }

  /** The events applied in order. */
  function Run(w: Wizard, es: seq<Event>): (r: Wizard)
    requires 0 <= w.active < TabCount
    ensures 0 <= r.active < TabCount
    decreases |es|
  {
    if es == [] then w else Run(Step(w, es[0]), es[1..])
  }

  /** From the initial data, Next, Next reaches the Setting tab. */
  lemma NextNextReachesSettings()
    ensures Run(InitialWizard, [Next, Next]).active == 2
  {
    InitialDataValid();
    assert [Next, Next][1..] == [Next];
  }

  /** Clearing every interest blocks the Interest tab in place. */
  lemma EmptyInterestsBlockNext(w: Wizard)
    requires w.active == 1 && w.data.interests == Some([])
    ensures Step(w, Next).active == 1
    ensures Step(w, Next).errors.interests == Some(InterestsRequired)
  {
  }

  /** Checking an interest twice keeps two copies; unchecking removes both. */
  lemma InterestDuplicatesThenRemoved(interests: seq<string>, name: string)
    ensures var twice := ToggleInterests(Some(interests), name, true);
            && multiset(twice.value)[name] == multiset(interests)[name] + 1
            && name !in ToggleInterests(twice, name, false).value
  {
  }
}
